=== FILE: README.md ===
# Ogg Vorbis decoding backend and symbol-namespacing script, modelled in Dafny

This project models two parts of the SoLoud waveform code.

The first is the libvorbis decoding backend for the bundled miniaudio
(`soloud_ma_libvorbis_*`). It covers:

- the memory-backed stream provider: read, seek and tell over a borrowed
  byte buffer;
- the three `ov_callbacks` bridge procedures that libvorbis calls and that
  forward to the stored read/seek/tell procedures;
- output-format selection and the construction entry points `init`,
  `init_file` and `init_memory`, and `uninit`;
- the PCM read loop `read_pcm_frames`;
- the queries `seek_to_pcm_frame`, `get_data_format`,
  `get_cursor_in_pcm_frames` and `get_length_in_pcm_frames`.

The second is `namespace_file` from the script that renames the bundled
miniaudio's symbols: two regular-expression substitutions (`\bMA_` becomes
`SOLOUD_MA_`, then `(?<!soloud_)\bma_` becomes `soloud_ma_`), and the
decision to write a backup and the new content only when the text changed.

Every call into libvorbis (`ov_open_callbacks`, `ov_fopen`, `ov_read`,
`ov_read_float`, `ov_pcm_seek`, `ov_info`, `ov_pcm_tell`, `ov_pcm_total`) and
into miniaudio helpers (`data_source_init`, `malloc`) is modelled as an
oracle. Its result is an input parameter of the modelled function. Pointers
that may be null become `bool` or `Option` parameters. `size_t` and `int64`
are 64 bits wide, and the wrap-around in the source's arithmetic is written
out (`Common.WrapSizeT`, `Common.WrapInt64`).

Modules, one per file:

- `Common` (common.dfy): result codes, sample formats, integer widths.
- `MemoryStream` (memory_stream.dfy): the memory stream provider.
- `Bridge` (bridge.dfy): the libvorbis callbacks, and the memory stream as
  seen through them.
- `Lifecycle` (lifecycle.dfy): format selection, the construction entry
  points, `uninit`, and a ledger of the resources each leaves allocated.
- `FrameArith` (frame_arith.dfy): frame/byte arithmetic used by the read loop.
- `ReadLoop` (read_loop.dfy): `read_pcm_frames`, as a recursive reference
  definition `Loop` and as the iterative method that equals it.
- `Queries` (queries.dfy): the seek and query entry points.
- `Rewrite` (rewrite.dfy): `re.sub` semantics for the two patterns, the
  composed transform and the file-level decision.

Behaviours of the code that the model keeps as they are:

- A zero-length chunk ends the read with AT_END even after earlier chunks
  made progress (src/waveform/miniaudio_libvorbis.cpp:445-447, 459-461). Only
  a filled request returns SUCCESS (`ReadLoop.PartialThenEndIsAtEnd`).
- Construction from callbacks is not atomic. `init` returns INVALID_ARGS for
  a null read or seek callback, and INVALID_FILE for a stream libvorbis
  rejects, after `init_internal` has already set up the base data source and
  the decode handle; neither is released (lines 177-205,
  `Lifecycle.CallbackInitFailureLeaks`). `init_file` behaves the same way
  (lines 223-235).
- The memory stream record of a memory-backed decoder is never freed. The
  backend's teardown says the stream is freed in `soloud_ma_libvorbis_uninit`
  (line 723), but `uninit` only clears the pointer and says the backend
  frees it (line 393) (`Lifecycle.MemoryTeardownKeepsStreamRecord`).
- The memory read procedure returns a byte count where a result code is
  expected (see Findings).

## Model

| member | source | states |
|---|---|---|
| Common.WrapInt64 | src/waveform/miniaudio_libvorbis.cpp:283-286 | storing an unbounded sum in an `int64` yields a value in the int64 range, congruent to the sum modulo 2^64, and the sum itself whenever it already fits |
| Common.WrapSizeT | src/waveform/miniaudio_libvorbis.cpp:79 | the `size_t` product is in `[0, 2^64)`, congruent modulo 2^64, and exact when it fits |
| MemoryStream.Open | src/waveform/miniaudio_libvorbis.cpp:333-335 | the stream record `init_memory` fills in satisfies the record invariant, describes the caller's buffer and starts at offset 0 |
| MemoryStream.Read | src/waveform/miniaudio_libvorbis.cpp:255-271 | a read copies exactly the bytes under the cursor, at most the request and at most what remains (the full request unless the buffer runs out); the cursor advances by the count returned; the count is stored through `pBytesRead` exactly when that pointer is non-null; at the end of the buffer nothing changes |
| MemoryStream.Seek | src/waveform/miniaudio_libvorbis.cpp:273-298 | a seek returns SUCCESS or INVALID_ARGS; a rejected seek leaves the record unchanged; an unknown origin is rejected; for a buffer below 2^63 bytes it succeeds exactly when the target computed from start/current/end lies in `[0, dataSize]`, and then the cursor is that target |
| MemoryStream.Tell | src/waveform/miniaudio_libvorbis.cpp:300-309 | tell succeeds exactly when the out-pointer is non-null, and then reports the cursor; otherwise it reports INVALID_ARGS and writes nothing |
| MemoryStream.SeekThenTell | src/waveform/miniaudio_libvorbis.cpp:273-309 | after a seek, tell reports the target when the seek succeeded and the old cursor when it was rejected |
| MemoryStream.ReadSplit | src/waveform/miniaudio_libvorbis.cpp:255-271 | two consecutive reads of `a` and `b` bytes copy the same bytes and leave the same record as one read of `a + b` bytes |
| MemoryStream.RunKeepsInvariant | src/waveform/miniaudio_libvorbis.cpp:255-309 | after any sequence of reads, seeks and tells, the cursor stays within `[0, dataSize]` and the record still describes the caller's buffer |
| MemoryStream.ReadWholeBuffer | src/waveform/miniaudio_libvorbis.cpp:255-271 | reading the size of a freshly opened buffer returns the whole buffer |
| Bridge.BridgeRead | src/waveform/miniaudio_libvorbis.cpp:67-87 | an empty request (size or count 0) never reaches the read procedure and returns 0; otherwise `size * count` bytes are requested, computed modulo 2^64; a failing procedure yields 0; a successful one is reported in whole elements, rounded down |
| Bridge.BridgeSeek | src/waveform/miniaudio_libvorbis.cpp:89-109 | SEEK_SET maps to the start origin, SEEK_END to the end origin and every other whence to the current origin; the result is 0 exactly on success and -1 exactly on failure |
| Bridge.BridgeTell | src/waveform/miniaudio_libvorbis.cpp:111-123 | a failing tell procedure gives -1, a successful one the cursor; for non-negative cursors failure is distinguishable from every offset |
| Bridge.AsWrittenReply | src/waveform/miniaudio_libvorbis.cpp:338 | through the pointer cast, an empty memory read looks like success and every non-empty read below 4 GiB looks like failure; the stored count is passed on |
| Bridge.AsWrittenMemoryRead | src/waveform/miniaudio_libvorbis.cpp:67-87 | with the memory read procedure as installed, a libvorbis read moves the cursor over `min(size * count, remaining)` bytes, yet reports elements only when the low 32 bits of that byte count are zero, and reports 0 for any advance below 4 GiB |
| Bridge.AsWrittenMemoryReadLosesData | src/waveform/miniaudio_libvorbis.cpp:75-86 | with the memory read procedure as installed, any request below 4 GiB on a stream with data left moves the cursor forward but reports 0 elements to libvorbis |
| Bridge.AsWrittenMemoryReadExample | src/waveform/miniaudio_libvorbis.cpp:338 | concretely: a 10-byte buffer read as 4096 one-byte elements reports 0 while the cursor moves to 10 |
| Bridge.CorrectedMemoryRead | src/waveform/miniaudio_libvorbis.cpp:67-87 | with the intended memory read reply (SUCCESS and the stored count), a libvorbis read of any element size moves the cursor over `min(size * count, remaining)` bytes and reports the whole elements those bytes hold |
| Bridge.CorrectedMemoryReadDelivers | src/waveform/miniaudio_libvorbis.cpp:67-87 | with the intended reply, a byte-wise libvorbis read reports exactly the bytes the cursor moved over, namely `min(count, remaining)`, and reports 0 only at the end of the buffer |
| Lifecycle.SelectFormat | src/waveform/miniaudio_libvorbis.cpp:136-142 | the output format is always f32 or s16, and it is s16 exactly when the config asks for s16 |
| Lifecycle.InitInternal | src/waveform/miniaudio_libvorbis.cpp:126-169 | a null instance gives INVALID_ARGS with nothing written; otherwise the record gets the selected format; it succeeds exactly when the data source initialises and the handle is allocated, leaving both allocated; any failure releases everything |
| Lifecycle.Init | src/waveform/miniaudio_libvorbis.cpp:171-215 | init succeeds exactly when the shared initialiser succeeds, the read and seek callbacks are non-null and libvorbis accepts the stream; on success the read and seek callbacks and the user data are bound, and the tell slot holds the callback exactly when one was passed; null callbacks give INVALID_ARGS and a rejected stream INVALID_FILE, both after the data source and handle were allocated and with neither released |
| Lifecycle.InitFile | src/waveform/miniaudio_libvorbis.cpp:217-246 | init_file succeeds exactly when the shared initialiser succeeds and libvorbis opens the file; a file it cannot open gives INVALID_FILE with the data source and handle still allocated |
| Lifecycle.Uninit | src/waveform/miniaudio_libvorbis.cpp:371-395 | a null instance is a no-op; otherwise the data source and decode handle are released, every other resource is left as it was, and the user-data pointer is cleared |
| Lifecycle.InitMemory | src/waveform/miniaudio_libvorbis.cpp:311-369 | a null instance, a null buffer or a zero size is rejected before anything is allocated; success needs every step to succeed and binds the memory procedures to a stream record over the caller's buffer at offset 0; every later failure releases all it allocated |
| Lifecycle.MemoryTeardownKeepsStreamRecord | src/waveform/miniaudio_libvorbis.cpp:371-395 | uninit of a successfully constructed memory-backed decoder leaves the memory stream record allocated |
| Lifecycle.CallbackInitFailureLeaks | src/waveform/miniaudio_libvorbis.cpp:177-205 | a null read callback, or a stream libvorbis rejects (OV_ENOTVORBIS), returns an error while resources stay allocated |
| Queries.SeekToPcmFrame | src/waveform/miniaudio_libvorbis.cpp:491-522 | a null instance gives INVALID_ARGS; otherwise SUCCESS iff the codec seek returns 0, INVALID_OPERATION iff OV_ENOSEEK, INVALID_ARGS iff OV_EINVAL, ERROR iff any other non-zero value |
| Queries.GetDataFormat | src/waveform/miniaudio_libvorbis.cpp:524-576 | every non-null out-pointer is written and no null one is; the result is SUCCESS iff there is an instance and `ov_info` is available, INVALID_OPERATION otherwise; the format is the instance's format, written even when `ov_info` fails; on success the channels, rate and channel map come from the codec |
| Queries.DataFormatFailureLeavesDefaults | src/waveform/miniaudio_libvorbis.cpp:526-553 | whenever get_data_format fails, the channel count, sample rate and channel map it leaves are the zero defaults |
| Queries.DataFormatWithoutInfoKeepsFormat | src/waveform/miniaudio_libvorbis.cpp:544-553 | an instance whose `ov_info` is unavailable still reports its output format, alongside INVALID_OPERATION |
| Queries.PositionQuery | src/waveform/miniaudio_libvorbis.cpp:578-639 | a null out-pointer gives INVALID_ARGS with nothing written; otherwise it is zeroed first; SUCCESS iff there is an instance and the codec value is non-negative, and then that value is reported; a negative codec value gives INVALID_FILE with 0 left |
| Queries.PositionFailureReadsZero | src/waveform/miniaudio_libvorbis.cpp:578-639 | a cursor or length query that does not succeed leaves 0 in a non-null out-pointer |
| ReadLoop.Loop | src/waveform/miniaudio_libvorbis.cpp:421-465 | the loop keeps the buffer's size, makes no more calls than the codec answers, and ends with a frame count between its start and the request, whose bytes fit the buffer |
| ReadLoop.LoopOutcome | src/waveform/miniaudio_libvorbis.cpp:421-465 | the loop ends with SUCCESS iff every requested frame was read, ERROR iff the last call returned a negative value, AT_END iff it returned 0; every earlier call made progress; the count is the sum of the frames the calls returned |
| ReadLoop.LoopTrace | src/waveform/miniaudio_libvorbis.cpp:427-451 | call `i` writes at the byte offset of the frames accumulated so far and requests `min(1024, remaining)` frames (times the frame size on the s16 path) |
| ReadLoop.LoopContents | src/waveform/miniaudio_libvorbis.cpp:436-457 | when every s16 result is a whole number of frames: from any starting frame, the bytes before that frame are untouched, then come the delivered chunks in call order, then the caller's old content from the final frame count on |
| ReadLoop.ReadChunk | src/waveform/miniaudio_libvorbis.cpp:427-463 | one pass of the loop body either stops with ERROR or AT_END, as the reference loop does, or continues with SUCCESS from the new total, which the codec still feeds |
| ReadLoop.RunChunks | src/waveform/miniaudio_libvorbis.cpp:421-465 | the iterative loop computes the same status, count, buffer and calls as the recursive reference definition |
| ReadLoop.ReadPcmFrames | src/waveform/miniaudio_libvorbis.cpp:397-489 | a zero-frame request or a null instance gives INVALID_ARGS with 0 frames read and nothing written; otherwise the result is the reference loop from frame 0, with the ending and the calls described above |
| ReadLoop.ReadContents | src/waveform/miniaudio_libvorbis.cpp:436-468 | after a read with f32 output, or with s16 results in whole frames, the first `framesRead` frames of the buffer hold the delivered chunks in call order, and the rest is the caller's old content |
| ReadLoop.PartialThenEndIsAtEnd | src/waveform/miniaudio_libvorbis.cpp:443-472 | on both paths, a chunk of two frames (of ten requested) followed by an end-of-stream chunk returns AT_END with 2 frames read, not SUCCESS |
| ReadLoop.PartialFrameLeftBehind | src/waveform/miniaudio_libvorbis.cpp:451-461 | on the s16 path, a 3-byte chunk with 4-byte frames is written but not counted; when the next call ends the stream the read returns AT_END with 0 frames and those bytes stay in the buffer |
| Rewrite.Sub | namespace_miniaudio.py:48-52 | one `re.sub` pass (the left-to-right scan `Rewrite.SubFrom` from the start); its own contract says text without a match comes back unchanged, and the lemmas below state the rest |
| Rewrite.Namespace | namespace_miniaudio.py:47-52 | the upper-case pass, then the lower-case pass over its output; its own contract says the content never gets shorter, and `Rewrite.NamespaceChangesIffMatch`, `Rewrite.NamespaceLeavesNoMatch` and `Rewrite.NamespaceIdempotent` state the rest |
| Rewrite.SubFromIdentity | namespace_miniaudio.py:48-52 | a substitution copies text in which its pattern never matches unchanged |
| Rewrite.SubIsPointwise | namespace_miniaudio.py:48-52 | a substitution pass equals the position-by-position reading: each match is replaced, characters inside a match are dropped, every other character is copied, in order |
| Rewrite.LookbehindRedundant | namespace_miniaudio.py:52 | the `(?<!soloud_)` look-behind never changes whether `\bma_` matches |
| Rewrite.UpperRuleShape | namespace_miniaudio.py:48 | `MA_` is made of word characters, and `SOLOUD_MA_` is longer than it, ends with it and starts no new match of it |
| Rewrite.LowerRuleShape | namespace_miniaudio.py:52 | `ma_` has the same shape, and `soloud_ma_` starts no new match of either pattern |
| Rewrite.SubFromGrows | namespace_miniaudio.py:48-52 | a pass never shortens the text, and lengthens it when its pattern matches |
| Rewrite.SubChangesIffMatch | namespace_miniaudio.py:48-54 | a pass changes the text exactly when its pattern matches somewhere |
| Rewrite.SubLeavesNoMatch | namespace_miniaudio.py:48-52 | after a pass, its pattern matches nowhere in the output |
| Rewrite.SubKeepsNoMatch | namespace_miniaudio.py:48-52 | the lower-case pass cannot create a match of the upper-case pattern |
| Rewrite.SubIdempotent | namespace_miniaudio.py:48-52 | each pass is idempotent |
| Rewrite.NamespaceLeavesNoMatch | namespace_miniaudio.py:47-52 | the namespaced text holds no `MA_` and no `ma_` at a word boundary |
| Rewrite.NamespaceIdempotent | namespace_miniaudio.py:47-52 | namespacing already-namespaced text changes nothing |
| Rewrite.NamespaceChangesIffMatch | namespace_miniaudio.py:47-54 | the transform changes the text exactly when it holds an `MA_` or a `ma_` at a word boundary |
| Rewrite.NamespaceFile | namespace_miniaudio.py:54-73 | a file is reported changed exactly when it holds a match; an unchanged file gets no writes; a changed file gets exactly two writes: the original to `path.backup`, then the namespaced text (which differs from the original) to its own path |
| Rewrite.SecondRunChangesNothing | namespace_miniaudio.py:54-73 | running the script again over its own output reports no change |
| Rewrite.RenamesMacro | namespace_miniaudio.py:48 | `MA_X` becomes `SOLOUD_MA_X` |
| Rewrite.RenamesIdentifier | namespace_miniaudio.py:52 | `(ma_y` becomes `(soloud_ma_y` |
| Rewrite.KeepsWordInterior | namespace_miniaudio.py:52 | the `ma_` inside `gamma_` is not at a word boundary and is kept |
| Rewrite.KeepsMixedCase | namespace_miniaudio.py:48-52 | the patterns are case-sensitive: `Ma_` and `mA_` are kept |

## Left out

- Calls into libvorbis and miniaudio helpers (`ov_*`, `soloud_ma_data_source_init`, `soloud_ma_malloc`, `soloud_ma_free`, `soloud_ma_channel_map_init_standard`) are not modelled. Each is an oracle input: its result is a parameter.
- The data-source vtable wrappers (src/waveform/miniaudio_libvorbis.cpp:29-63) only forward to the modelled functions, so they are not modelled.
- The decoding-backend wrappers (src/waveform/miniaudio_libvorbis.cpp:646-737) are not modelled, and the decoder record they allocate is not tracked in the resource ledger. Each `init*` wrapper allocates the record (lines 653, 676, 701), forwards to the modelled entry point, and frees the record when that entry point fails (lines 660, 683, 708). The backend's teardown frees the record after `uninit` (line 725). After a failed `init` or `init_file`, the record that held the decode handle is freed, so the data source and handle that `Lifecycle.Init` and `Lifecycle.InitFile` leave allocated can never be released.
- The `#else` branches compiled when libvorbis is disabled (NOT_IMPLEMENTED and `assert(FALSE)`) are not modelled. Only the libvorbis build is.
- The f32 path's interleaving of the planar `ov_read_float` output (`soloud_ma_interleave_pcm_frames`) is not modelled. Each codec reply carries the bytes the call leaves in the buffer, already interleaved. Floating-point sample values are not modelled.
- ReadLoop.ReadPcmFrames: the bytes per frame are a positive parameter. The source computes it from `get_data_format`'s format and channels (line 419). When `ov_info` fails the channel count is 0, and the s16 path then divides by zero (line 457); the model excludes that case.
- ReadLoop.ReadPcmFrames: a null `pFramesRead` only skips the two stores (lines 399-401, 467-469). The model always returns the count.
- ReadLoop.ReadPcmFrames: the `(int)` casts of the request (lines 436 and 451) are not modelled. A chunk request is at most 1024 frames, and it overflows `int` only for frames wider than 2 MiB.
- ReadLoop.ReadPcmFrames: the codec is required to answer each request honestly (at most the request) and to end within a finite sequence of replies (`ReadLoop.Feeds`). This stands for libvorbis eventually returning 0 or an error.
- ReadLoop.ReadContents: stated only when every s16 result is a whole number of frames. A partial frame's bytes are written but not counted. A later chunk overwrites them, but when the next call ends the read they stay in the buffer past `framesRead` (`ReadLoop.PartialFrameLeftBehind`).
- ReadLoop.ReadPcmFrames: the output buffer is a sequence, so a null `pFramesOut` cannot be represented. The source never checks it (lines 403-409, 436-451) and passes it on to the codec.
- 32-bit targets (the source has its own `__EMSCRIPTEN__` branch, lines 8-12) are not modelled: `size_t` and `long` are taken as 64 bits. On a 32-bit target the memory read's count would fail every non-empty read, not only reads below 4 GiB, and the seek sum of line 283 would not wrap.
- Bridge.BridgeTell: `long` is taken as 64 bits wide. A null tell procedure stored by `init` is called by the bridge without a check (line 117); the model takes the procedure's reply as given.
- Lifecycle.Uninit: `ov_clear` on a handle that was never opened is not modelled (it is a libvorbis call); only the release of the handle's memory is tracked.
- Rewrite.IsWordChar: Python's `\w` on `str` patterns also matches non-ASCII letters and digits. The model takes `\w` over ASCII only, which decides the same for every source file made of ASCII text.
- Reading the file as UTF-8 with errors ignored (namespace_miniaudio.py:33) is not modelled. The model's text is the decoded string.
- File I/O is not modelled (namespace_miniaudio.py:56-63). It becomes the list of writes `Rewrite.NamespaceFile` returns.
- The progress printing and match counting (namespace_miniaudio.py:31, 59, 64-71) only print, so they are not modelled.
- The script's `main` and its file list (namespace_miniaudio.py:15-27, 75-109) only loop over files and print, so they are not modelled.

## Findings

| source | as written | input that shows it | evidently intended | confidence | as-written member | corrected member |
|---|---|---|---|---|---|---|
| src/waveform/miniaudio_libvorbis.cpp:338 with 255-271 and 80-84 | `init_memory` installs `soloud_ma_memory_stream_read`, which returns a `size_t` byte count, cast to a read procedure returning a result code; the bridge treats any non-zero return as failure and reports 0 elements | a 10-byte buffer; libvorbis asks for 4096 one-byte elements; the cursor moves to 10 and the bridge returns 0, so libvorbis sees end of file with the data consumed | the memory read procedure returns SUCCESS and reports the count through `pBytesRead`, so the bridge returns the bytes read | high for the model; not executed | Bridge.AsWrittenMemoryReadLosesData | Bridge.CorrectedMemoryReadDelivers |

=== FILE: bridge.dfy ===
/**
  The byte-stream bridge: the three `ov_callbacks` procedures libvorbis calls
  (`soloud_ma_libvorbis_vf_callback__read`, `__seek`, `__tell`), each of which
  forwards to the read/seek/tell procedure stored in the decoder record and
  translates the reply. The stored procedure is an oracle: its reply is an
  input of the bridge function.
 */
module Bridge {
  import opened Common
  import MemoryStream
  import FrameArith

  /** `<stdio.h>` whence values. */
  const SeekSet: int := 0
  const SeekCur: int := 1
  const SeekEnd: int := 2

  /** What a read procedure reported: whether its result equals
      SOLOUD_MA_SUCCESS, and the count it stored through `pBytesRead`. */
  datatype ReadReply = ReadReply(ok: bool, bytesRead: nat)

  /** One bridge read: the byte count forwarded to the read procedure (None
      when it is not called) and the element count handed back to libvorbis. */
  datatype BridgeReadOutcome = BridgeReadOutcome(request: Option<nat>, returned: nat)

  /** `soloud_ma_libvorbis_vf_callback__read`, given the reply the read
      procedure would give if called. */
  function BridgeRead(size: nat, count: nat, reply: ReadReply): (o: BridgeReadOutcome)
    requires IsSizeT(size) && IsSizeT(count)
    // fread convention: an empty request never reaches the procedure
    ensures o.request.None? <==> size == 0 || count == 0
    ensures o.request.None? ==> o.returned == 0
    // otherwise the byte request is size * count, computed modulo 2^64 in size_t
    ensures o.request.Some? ==> IsSizeT(o.request.value)
    ensures o.request.Some? ==> (o.request.value - size * count) % Two64 == 0
    ensures o.request.Some? && size * count < Two64 ==> o.request.value == size * count
    // a failed procedure looks like end of file
    ensures o.request.Some? && !reply.ok ==> o.returned == 0
    // a successful one is reported in whole elements of `size` bytes
    ensures o.request.Some? && reply.ok ==>
      o.returned * size <= reply.bytesRead < (o.returned + 1) * size
  {
    if size == 0 || count == 0 then BridgeReadOutcome(None, 0)
    else
      var bytesToRead := WrapSizeT(size * count);
      if !reply.ok then BridgeReadOutcome(Some(bytesToRead), 0)
      else
        FrameArith.FramesInRemainder(reply.bytesRead, size);
        BridgeReadOutcome(Some(bytesToRead), reply.bytesRead / size)
  }

  /** One bridge seek: the origin forwarded to the seek procedure and the int
      handed back to libvorbis. */
  datatype BridgeSeekOutcome = BridgeSeekOutcome(origin: MemoryStream.SeekOrigin, returned: int)

  /** `soloud_ma_libvorbis_vf_callback__seek`, given whether the seek procedure
      reported SOLOUD_MA_SUCCESS. The bridge passes libvorbis's offset straight
      through, so the offset is not a parameter here. */
  function BridgeSeek(whence: int, ok: bool): (o: BridgeSeekOutcome)
    ensures o.origin != MemoryStream.UnknownOrigin
    ensures o.origin == MemoryStream.OriginStart <==> whence == SeekSet
    ensures o.origin == MemoryStream.OriginEnd <==> whence == SeekEnd
    ensures o.origin == MemoryStream.OriginCurrent <==> whence != SeekSet && whence != SeekEnd
    ensures o.returned == 0 <==> ok
    ensures o.returned == -1 <==> !ok
  {
    var origin :=
      if whence == SeekSet then MemoryStream.OriginStart
      else if whence == SeekEnd then MemoryStream.OriginEnd
      else MemoryStream.OriginCurrent;
    BridgeSeekOutcome(origin, if ok then 0 else -1)
  }

  /** `soloud_ma_libvorbis_vf_callback__tell`, given whether the tell procedure
      reported SOLOUD_MA_SUCCESS and the cursor it stored. */
  function BridgeTell(ok: bool, cursor: int): (r: int)
    requires IsInt64(cursor)
    ensures !ok ==> r == -1
    ensures ok ==> r == cursor
    // a failure is distinguishable from every legitimate (non-negative) offset
    ensures cursor >= 0 ==> (r >= 0 <==> ok)
  {
    if !ok then -1 else cursor
  }

  // ---------------------------------------------------------------------
  // The memory stream seen through the bridge.
  // ---------------------------------------------------------------------

  /** The reply the bridge sees from the memory read procedure as installed by
      `init_memory`: the procedure returns its `size_t` byte count, the pointer
      cast makes the caller read that as a `soloud_ma_result` (the low 32 bits
      of the return value), and SOLOUD_MA_SUCCESS is 0. */
  function AsWrittenReply(o: MemoryStream.ReadOutcome): (r: ReadReply)
    requires o.bytesRead.Some?
    ensures r.bytesRead == o.bytesRead.value
    // an empty read looks like success ...
    ensures o.returned == 0 ==> r.ok
    // ... and every non-empty read below 4 GiB looks like a failure
    ensures 0 < o.returned < 0x1_0000_0000 ==> !r.ok
  {
    ReadReply(o.returned % 0x1_0000_0000 == 0, o.bytesRead.value)
  }

  /** One libvorbis read of a memory stream with the provider as installed. */
  function AsWrittenMemoryRead(st: MemoryStream.Stream, size: nat, count: nat): (r: (BridgeReadOutcome, MemoryStream.Stream))
    requires MemoryStream.Valid(st) && IsSizeT(size) && IsSizeT(count)
    ensures MemoryStream.Valid(r.1) && r.1.data == st.data && st.currentPos <= r.1.currentPos
    // the cursor moves over the bytes the request covers, as far as the buffer allows
    ensures 0 < size && 0 < count && size * count < Two64 ==>
      r.1.currentPos - st.currentPos == Min(size * count, st.dataSize - st.currentPos)
    // yet elements are reported only when the low 32 bits of that byte count are zero
    ensures r.0.returned > 0 ==> (r.1.currentPos - st.currentPos) % 0x1_0000_0000 == 0
    ensures 0 < r.1.currentPos - st.currentPos < 0x1_0000_0000 ==> r.0.returned == 0
  {
    var probe := BridgeRead(size, count, ReadReply(true, 0));
    match probe.request
    case None => (probe, st)
    case Some(n) =>
      var o := MemoryStream.Read(st, n, true);
      (BridgeRead(size, count, AsWrittenReply(o)), o.stream)
  }

  /** Counterexample: any read request below 4 GiB on a stream that still has
      data consumes bytes from the buffer yet reports zero elements, so
      libvorbis sees end of file while the cursor has moved on. */
  lemma AsWrittenMemoryReadLosesData(st: MemoryStream.Stream, size: nat, count: nat)
    requires MemoryStream.Valid(st)
    requires st.currentPos < st.dataSize
    requires 0 < size && 0 < count && size * count < 0x1_0000_0000
    ensures AsWrittenMemoryRead(st, size, count).0.returned == 0
    ensures AsWrittenMemoryRead(st, size, count).1.currentPos > st.currentPos
  {
    var o := MemoryStream.Read(st, size * count, true);
    assert 0 < o.returned < 0x1_0000_0000;
  }

  /** The concrete instance: ten bytes of Ogg data, libvorbis asks for 4096
      one-byte elements and is told zero were read. */
  lemma AsWrittenMemoryReadExample()
    ensures var st := MemoryStream.Open(seq(10, i => 0x4f as byte));
            AsWrittenMemoryRead(st, 1, 4096).0.returned == 0
            && AsWrittenMemoryRead(st, 1, 4096).1.currentPos == 10
  {
    var st := MemoryStream.Open(seq(10, i => 0x4f as byte));
    AsWrittenMemoryReadLosesData(st, 1, 4096);
  }

  /** The evidently intended memory read procedure: it reports
      SOLOUD_MA_SUCCESS and the count through `pBytesRead`. */
  function CorrectedReply(o: MemoryStream.ReadOutcome): (r: ReadReply)
    requires o.bytesRead.Some?
  {
    ReadReply(true, o.bytesRead.value)
  }

  /** One libvorbis read of a memory stream with the corrected provider. */
  function CorrectedMemoryRead(st: MemoryStream.Stream, size: nat, count: nat): (r: (BridgeReadOutcome, MemoryStream.Stream))
    requires MemoryStream.Valid(st) && IsSizeT(size) && IsSizeT(count)
    ensures MemoryStream.Valid(r.1) && r.1.data == st.data && st.currentPos <= r.1.currentPos
    // the cursor moves over the bytes the request covers, as far as the buffer allows
    ensures 0 < size && 0 < count && size * count < Two64 ==>
      r.1.currentPos - st.currentPos == Min(size * count, st.dataSize - st.currentPos)
    // and libvorbis is told how many whole elements those bytes hold
    ensures 0 < size ==> r.0.returned == (r.1.currentPos - st.currentPos) / size
  {
    var probe := BridgeRead(size, count, ReadReply(true, 0));
    match probe.request
    case None => (probe, st)
    case Some(n) =>
      var o := MemoryStream.Read(st, n, true);
      (BridgeRead(size, count, CorrectedReply(o)), o.stream)
  }

  /** With the corrected provider, a byte-wise libvorbis read (size 1, as
      vorbisfile issues) gets exactly the bytes the cursor moved over, and
      reports end of file only when the buffer is exhausted. */
  lemma CorrectedMemoryReadDelivers(st: MemoryStream.Stream, count: nat)
    requires MemoryStream.Valid(st) && IsSizeT(count) && 0 < count
    ensures var (o, st') := CorrectedMemoryRead(st, 1, count);
            && o.returned == st'.currentPos - st.currentPos
            && o.returned == Min(count, st.dataSize - st.currentPos)
            && (o.returned == 0 <==> st.currentPos == st.dataSize)
  {
  }
}

=== FILE: common.dfy ===
/**
  Shared vocabulary of the Vorbis adapter model: the miniaudio result codes it
  returns, the sample formats it negotiates, and the fixed-width integer
  conventions (64-bit `size_t` and `int64`) the C code relies on.
 */
module Common {

  /** An optional value, used for nullable out-pointers and nullable inputs. */
  datatype Option<+T> = None | Some(value: T)

  /** A byte of the in-memory Vorbis payload or of the PCM output buffer. */
  newtype byte = x: int | 0 <= x < 256

  /** The miniaudio result codes the adapter produces. */
  datatype ResultCode =
    | Success
    | Error
    | InvalidArgs
    | InvalidOperation
    | OutOfMemory
    | InvalidFile
    | AtEnd
    | NotImplemented

  /** The miniaudio sample formats a decoding-backend config may prefer. */
  datatype SampleFormat = FormatUnknown | U8 | S16 | S24 | S32 | F32

  /** 2^64: the range of `size_t` and `uint64` on the 64-bit platforms this model assumes. */
  const Two64: int := 0x1_0000_0000_0000_0000
  /** 2^63: the bound of `int64` / `ogg_int64_t`. */
  const Two63: int := 0x8000_0000_0000_0000

  predicate IsSizeT(x: int) { 0 <= x < Two64 }
  predicate IsInt64(x: int) { -Two63 <= x < Two63 }

  /** Two's-complement wrap of an arbitrary integer into the `int64` range. */
  function WrapInt64(x: int): (r: int)
    ensures IsInt64(r)
    ensures (r - x) % Two64 == 0
    ensures IsInt64(x) ==> r == x
  {
    (x + Two63) % Two64 - Two63
  }

  /** Unsigned wrap into the `size_t` range. */
  function WrapSizeT(x: int): (r: int)
    ensures IsSizeT(r)
    ensures (r - x) % Two64 == 0
    ensures IsSizeT(x) ==> r == x
  {
    x % Two64
  }

  function Min(a: int, b: int): (r: int)
    ensures r <= a && r <= b
    ensures r == a || r == b
  {
    if a < b then a else b
  }
}

=== FILE: frame_arith.dfy ===
/**
  Frame/byte arithmetic of the read loop: `Scale(n, bpf)` is the size in
  bytes of `n` frames of `bpf` bytes, `FramesIn(x, bpf)` the number of whole
  frames in `x` bytes. The facts the loop needs are stated once here, so
  that the loop's own proofs only combine them linearly.
 */
module FrameArith {

  /** `n` frames of `bpf` bytes, in bytes. */
  function Scale(n: nat, bpf: nat): nat
  {
    n * bpf
  }

  /** Whole frames of `bpf` bytes in `x` bytes (the adapter's unsigned division). */
  function FramesIn(x: nat, bpf: nat): nat
    requires bpf > 0
  {
    x / bpf
  }

  lemma ScaleAdd(a: nat, b: nat, c: nat)
    ensures Scale(a + b, c) == Scale(a, c) + Scale(b, c)
  {
  }

  lemma ScaleMono(a: nat, b: nat, c: nat)
    requires a <= b
    ensures Scale(a, c) <= Scale(b, c)
  {
    ScaleAdd(a, b - a, c);
  }

  /** `FramesIn` rounds down: what is left over is less than one frame. */
  lemma FramesInRemainder(x: nat, c: nat)
    requires c > 0
    ensures Scale(FramesIn(x, c), c) <= x < Scale(FramesIn(x, c), c) + c
  {
  }

  /** A byte count within `f` frames holds at most `f` whole frames, and
      those frames fit in it. */
  lemma FramesInBound(x: nat, f: nat, c: nat)
    requires c > 0 && x <= Scale(f, c)
    ensures FramesIn(x, c) <= f
    ensures Scale(FramesIn(x, c), c) <= x
  {
    var q := FramesIn(x, c);
    FramesInRemainder(x, c);
    if q > f {
      ScaleMono(f + 1, q, c);
      ScaleAdd(f, 1, c);
    }
  }

  /** A byte count is a whole number of frames exactly when the frame size
      divides it. */
  lemma WholeFramesExact(x: nat, c: nat)
    requires c > 0
    ensures Scale(FramesIn(x, c), c) == x <==> x % c == 0
  {
  }
}

=== FILE: lifecycle.dfy ===
/**
  Construction and teardown of the decoder record (`soloud_ma_libvorbis`):
  output-format selection, the three entry points and `uninit`. Every call
  into miniaudio or libvorbis is an oracle input (its status or result).
  Ownership is tracked by a ledger of the resources a call leaves allocated,
  which is exactly what the code leaves behind, leaks included.
 */
module Lifecycle {
  import opened Common
  import MemoryStream

  /** The resources construction can allocate. */
  datatype Resource =
    | BaseDataSource   // `soloud_ma_data_source_init` on the record's `ds`
    | DecodeHandle     // the `OggVorbis_File` behind `vf`
    | StreamRecord     // the `soloud_ma_memory_stream` of `init_memory`

  /** Which read/seek/tell procedure a record slot holds. */
  datatype Proc = NoProc | UserProc | MemoryProc

  /** The user-data slot handed back to the procedures. */
  datatype UserData = NoUserData | External | OwnedStream(stream: MemoryStream.Stream)

  /** The decoder record: the stored procedures and their user data, the
      output format (f32 or s16 once constructed) and whether `vf` is set. */
  datatype Decoder = Decoder(onRead: Proc, onSeek: Proc, onTell: Proc, userData: UserData, format: SampleFormat, hasHandle: bool)

  /** The zero-filled record `init_internal` starts from. */
  const Zeroed: Decoder := Decoder(NoProc, NoProc, NoProc, NoUserData, FormatUnknown, false)

  /** What a construction entry point returns and leaves behind: the result
      code, the record (None when it was never written: a null instance
      pointer, or `init_memory` arguments rejected up front) and the
      resources still allocated when it returns. */
  datatype Construction = Construction(result: ResultCode, decoder: Option<Decoder>, live: set<Resource>)

  /** Output-format choice of `init_internal`: the config's preference when
      it is f32 or s16, f32 otherwise (including no config). */
  function SelectFormat(preferred: Option<SampleFormat>): (f: SampleFormat)
    ensures f == F32 || f == S16
    ensures f == S16 <==> preferred == Some(S16)
  {
    if preferred.Some? && (preferred.value == F32 || preferred.value == S16) then preferred.value
    else F32
  }

  /** `soloud_ma_libvorbis_init_internal`, given the data-source init result
      and whether the `OggVorbis_File` allocation succeeded. */
  function InitInternal(hasInstance: bool, preferred: Option<SampleFormat>, dsResult: ResultCode, vfAllocated: bool): (c: Construction)
    ensures !hasInstance ==> c == Construction(InvalidArgs, None, {})
    ensures hasInstance ==> c.decoder.Some? && c.decoder.value.format == SelectFormat(preferred)
    ensures c.result == Success <==> hasInstance && dsResult == Success && vfAllocated
    ensures c.result == Success ==> c.live == {BaseDataSource, DecodeHandle} && c.decoder.value.hasHandle
    // every failure of the shared initializer unwinds what it allocated
    ensures c.result != Success ==> c.live == {}
  {
    if !hasInstance then Construction(InvalidArgs, None, {})
    else
      var d := Zeroed.(format := SelectFormat(preferred));
      if dsResult != Success then Construction(dsResult, Some(d), {})
      else if !vfAllocated then Construction(OutOfMemory, Some(d), {})
      else Construction(Success, Some(d.(hasHandle := true)), {BaseDataSource, DecodeHandle})
  }

  /** `soloud_ma_libvorbis_init`: bind user callbacks and open the stream.
      `openResult` is what `ov_open_callbacks` returns. */
  function Init(hasRead: bool, hasSeek: bool, hasTell: bool, hasInstance: bool, preferred: Option<SampleFormat>,
                dsResult: ResultCode, vfAllocated: bool, openResult: int): (c: Construction)
    ensures c.result == Success <==>
      hasInstance && dsResult == Success && vfAllocated && hasRead && hasSeek && openResult >= 0
    // on success all three callbacks are bound; the tell slot holds whatever was passed, possibly null
    ensures c.result == Success ==>
      && c.decoder.Some?
      && c.decoder.value.onRead == UserProc && c.decoder.value.onSeek == UserProc
      && (c.decoder.value.onTell == UserProc <==> hasTell)
      && (c.decoder.value.onTell == NoProc <==> !hasTell)
      && c.decoder.value.userData == External
    // null callbacks are rejected only after the shared initializer ran
    ensures InitInternal(hasInstance, preferred, dsResult, vfAllocated).result == Success && !(hasRead && hasSeek) ==>
      c.result == InvalidArgs
    ensures InitInternal(hasInstance, preferred, dsResult, vfAllocated).result == Success && hasRead && hasSeek && openResult < 0 ==>
      c.result == InvalidFile
    // nothing is released on these late failures: the record keeps its data source and handle
    ensures InitInternal(hasInstance, preferred, dsResult, vfAllocated).result == Success ==>
      c.live == {BaseDataSource, DecodeHandle}
  {
    var base := InitInternal(hasInstance, preferred, dsResult, vfAllocated);
    if base.result != Success then base
    else if !hasRead || !hasSeek then Construction(InvalidArgs, base.decoder, base.live)
    else
      var d := base.decoder.value.(
        onRead := UserProc, onSeek := UserProc,
        onTell := if hasTell then UserProc else NoProc,
        userData := External);
      if openResult < 0 then Construction(InvalidFile, Some(d), base.live)
      else Construction(Success, Some(d), base.live)
  }

  /** `soloud_ma_libvorbis_init_file`: `openResult` is what `ov_fopen` returns. */
  function InitFile(hasInstance: bool, preferred: Option<SampleFormat>, dsResult: ResultCode, vfAllocated: bool, openResult: int): (c: Construction)
    ensures c.result == Success <==> hasInstance && dsResult == Success && vfAllocated && openResult >= 0
    ensures InitInternal(hasInstance, preferred, dsResult, vfAllocated).result == Success && openResult < 0 ==>
      c.result == InvalidFile && c.live == {BaseDataSource, DecodeHandle}
  {
    var base := InitInternal(hasInstance, preferred, dsResult, vfAllocated);
    if base.result != Success then base
    else if openResult < 0 then Construction(InvalidFile, base.decoder, base.live)
    else base
  }

  /** `soloud_ma_libvorbis_uninit`: closes and frees the decode handle and
      releases the base data source; the user-data slot is cleared but the
      memory stream record is not freed. */
  function Uninit(d: Option<Decoder>, live: set<Resource>): (r: (Option<Decoder>, set<Resource>))
    ensures d.None? ==> r == (d, live)
    ensures d.Some? ==> r.1 == live - {BaseDataSource, DecodeHandle}
    ensures d.Some? ==> r.0.Some? && r.0.value.userData == NoUserData
  {
    if d.None? then (d, live)
    else (Some(d.value.(userData := NoUserData)), live - {BaseDataSource, DecodeHandle})
  }

  /** `soloud_ma_libvorbis_init_memory` over the caller's buffer (None for a
      null pointer; `dataSize` is the buffer's length). */
  function InitMemory(hasInstance: bool, data: Option<seq<byte>>, preferred: Option<SampleFormat>,
                      dsResult: ResultCode, vfAllocated: bool, streamAllocated: bool, openResult: int): (c: Construction)
    requires data.Some? ==> IsSizeT(|data.value|)
    // argument checks come before any allocation
    ensures !hasInstance || data.None? || |data.value| == 0 ==> c == Construction(InvalidArgs, None, {})
    ensures c.result == Success <==>
      hasInstance && data.Some? && |data.value| > 0 && dsResult == Success && vfAllocated && streamAllocated && openResult >= 0
    // a memory-backed decoder reads the caller's buffer from offset 0 through the memory procedures
    ensures c.result == Success ==>
      && c.decoder.Some?
      && c.decoder.value.onRead == MemoryProc && c.decoder.value.onSeek == MemoryProc && c.decoder.value.onTell == MemoryProc
      && c.decoder.value.userData == OwnedStream(MemoryStream.Open(data.value))
      && c.live == {BaseDataSource, DecodeHandle, StreamRecord}
    // every failure after the argument checks releases everything it allocated
    ensures c.result != Success ==> c.live == {}
  {
    if !hasInstance || data.None? || |data.value| == 0 then Construction(InvalidArgs, None, {})
    else
      var base := InitInternal(hasInstance, preferred, dsResult, vfAllocated);
      if base.result != Success then base
      else if !streamAllocated then
        var (d, live) := Uninit(base.decoder, base.live);
        Construction(OutOfMemory, d, live)
      else
        var d := base.decoder.value.(
          onRead := MemoryProc, onSeek := MemoryProc, onTell := MemoryProc,
          userData := OwnedStream(MemoryStream.Open(data.value)));
        var live := base.live + {StreamRecord};
        if openResult < 0 then
          var (d', live') := Uninit(Some(d), live - {StreamRecord});
          Construction(InvalidFile, d', live')
        else Construction(Success, Some(d), live)
  }

  /** The backend's teardown of a memory-backed decoder leaves the stream
      record allocated: `uninit` never frees it. */
  lemma MemoryTeardownKeepsStreamRecord(data: seq<byte>, preferred: Option<SampleFormat>)
    requires 0 < |data| && IsSizeT(|data|)
    ensures var c := InitMemory(true, Some(data), preferred, Success, true, true, 0);
            Uninit(c.decoder, c.live).1 == {StreamRecord}
  {
    var c := InitMemory(true, Some(data), preferred, Success, true, true, 0);
    assert c.live == {BaseDataSource, DecodeHandle, StreamRecord};
  }

  /** Construction from callbacks is not atomic: a null read callback, or a
      stream libvorbis rejects, returns an error with the data source and the
      decode handle still allocated. */
  lemma CallbackInitFailureLeaks(preferred: Option<SampleFormat>, openResult: int)
    ensures var c := Init(false, true, true, true, preferred, Success, true, openResult);
            c.result == InvalidArgs && c.live == {BaseDataSource, DecodeHandle}
    // -132 is OV_ENOTVORBIS
    ensures var c := Init(true, true, true, true, preferred, Success, true, -132);
            c.result == InvalidFile && c.live != {}
  {
  }
}

=== FILE: memory_stream.dfy ===
/**
  The memory-backed stream provider (`soloud_ma_memory_stream` and its read,
  seek and tell procedures): a borrowed byte buffer, its size and a cursor.
  Every operation is a pure function from the old record to the new one.
 */
module MemoryStream {
  import opened Common

  /** The miniaudio seek origins; `UnknownOrigin` is any other enum value. */
  datatype SeekOrigin = OriginStart | OriginCurrent | OriginEnd | UnknownOrigin

  /** The stream record: the caller's buffer, its size and the cursor. */
  datatype Stream = Stream(data: seq<byte>, dataSize: nat, currentPos: nat)

  /** The record invariant: the size describes the buffer, fits a `size_t`,
      and the cursor lies inside `[0, dataSize]`. */
  predicate Valid(st: Stream)
  {
    && |st.data| == st.dataSize
    && IsSizeT(st.dataSize)
    && st.currentPos <= st.dataSize
  }

  /** The record `init_memory` fills in: the whole buffer, cursor at 0. */
  function Open(data: seq<byte>): (st: Stream)
    requires IsSizeT(|data|)
    ensures Valid(st)
    ensures st.data == data && st.currentPos == 0
  {
    Stream(data, |data|, 0)
  }

  /** What one read produced: the new record, the bytes copied into the
      caller's buffer, the value stored through `pBytesRead` (None when that
      pointer is null) and the `size_t` returned. */
  datatype ReadOutcome = ReadOutcome(stream: Stream, copied: seq<byte>, bytesRead: Option<nat>, returned: nat)

  /** `soloud_ma_memory_stream_read`: copy at most `bytesToRead` bytes from the cursor. */
  function Read(st: Stream, bytesToRead: nat, hasBytesRead: bool): (o: ReadOutcome)
    requires Valid(st)
    requires IsSizeT(bytesToRead)
    ensures Valid(o.stream)
    ensures o.stream.data == st.data && o.stream.dataSize == st.dataSize
    // the count is the request clamped to what is left
    ensures o.returned <= bytesToRead && o.returned <= st.dataSize - st.currentPos
    ensures o.returned == bytesToRead || o.stream.currentPos == st.dataSize
    // the copied bytes are exactly the ones under the cursor, and the cursor moves past them
    ensures |o.copied| == o.returned
    ensures st.data[st.currentPos..] == o.copied + st.data[o.stream.currentPos..]
    ensures o.stream.currentPos == st.currentPos + o.returned
    ensures o.bytesRead == (if hasBytesRead then Some(o.returned) else None)
    // at the end of the buffer a read succeeds with nothing copied and nothing changed
    ensures st.currentPos == st.dataSize ==> o.returned == 0 && o.stream == st
  {
    var remainingSize := st.dataSize - st.currentPos;
    var adjusted := if bytesToRead < remainingSize then bytesToRead else remainingSize;
    var st' := if adjusted > 0 then st.(currentPos := st.currentPos + adjusted) else st;
    var copied := if adjusted > 0 then st.data[st.currentPos .. st.currentPos + adjusted] else [];
    assert st.data[st.currentPos..] == copied + st.data[st'.currentPos..];
    ReadOutcome(st', copied, if hasBytesRead then Some(adjusted) else None, adjusted)
  }

  /** The position a seek asks for, in unbounded arithmetic; None for an unknown origin. */
  function Target(st: Stream, offset: int, origin: SeekOrigin): Option<int>
  {
    match origin
    case OriginStart => Some(offset)
    case OriginCurrent => Some(st.currentPos + offset)
    case OriginEnd => Some(st.dataSize + offset)
    case UnknownOrigin => None
  }

  /** The candidate exactly as the C code computes it: `size_t + int64` is done
      modulo 2^64 and the sum is stored in an `int64`. */
  function Candidate(st: Stream, offset: int, origin: SeekOrigin): Option<int>
  {
    match origin
    case OriginStart => Some(offset)
    case OriginCurrent => Some(WrapInt64(st.currentPos + offset))
    case OriginEnd => Some(WrapInt64(st.dataSize + offset))
    case UnknownOrigin => None
  }

  /** `soloud_ma_memory_stream_seek`: commit the candidate when it lies in
      `[0, dataSize]`, otherwise report INVALID_ARGS and keep the cursor. */
  function Seek(st: Stream, offset: int, origin: SeekOrigin): (r: (ResultCode, Stream))
    requires Valid(st)
    requires IsInt64(offset)
    ensures Valid(r.1)
    ensures r.0 == Success || r.0 == InvalidArgs
    ensures r.0 == InvalidArgs ==> r.1 == st
    ensures origin == UnknownOrigin ==> r.0 == InvalidArgs
    // for any buffer an address space can hold, the wrap-around never decides the outcome
    ensures st.dataSize < Two63 ==>
      (r.0 == Success <==> Target(st, offset, origin).Some? && 0 <= Target(st, offset, origin).value <= st.dataSize)
    ensures st.dataSize < Two63 && r.0 == Success ==> r.1 == st.(currentPos := Target(st, offset, origin).value)
  {
    match Candidate(st, offset, origin)
    case None => (InvalidArgs, st)
    case Some(newPos) =>
      if newPos < 0 || newPos > st.dataSize then (InvalidArgs, st)
      else (Success, st.(currentPos := newPos))
  }

  /** `soloud_ma_memory_stream_tell`: the cursor, or INVALID_ARGS for a null
      out-pointer. The `size_t` cursor is stored into an `int64`. */
  function Tell(st: Stream, hasCursorOut: bool): (r: (ResultCode, Option<int>))
    requires Valid(st)
    ensures hasCursorOut <==> r.0 == Success
    ensures r.0 == Success && st.currentPos < Two63 ==> r.1 == Some(st.currentPos)
    ensures r.0 != Success ==> r.0 == InvalidArgs && r.1 == None
  {
    if !hasCursorOut then (InvalidArgs, None)
    else (Success, Some(WrapInt64(st.currentPos)))  // size_t stored into an int64
  }

  /** Seeking to `k` from the start and then telling reports `k`; a rejected
      seek leaves tell reporting the old cursor. */
  lemma SeekThenTell(st: Stream, offset: int, origin: SeekOrigin)
    requires Valid(st) && IsInt64(offset) && st.dataSize < Two63
    ensures var (res, st') := Seek(st, offset, origin);
      Tell(st', true).1 == Some(if res == Success then Target(st, offset, origin).value else st.currentPos)
  {
  }

  /** Two consecutive reads copy the same bytes as one read of the combined size. */
  lemma ReadSplit(st: Stream, a: nat, b: nat)
    requires Valid(st) && IsSizeT(a + b)
    ensures var o1 := Read(st, a, false);
            var o2 := Read(o1.stream, b, false);
            var o := Read(st, a + b, false);
            o1.copied + o2.copied == o.copied && o2.stream == o.stream
  {
    var o1 := Read(st, a, false);
    var o2 := Read(o1.stream, b, false);
    var o := Read(st, a + b, false);
    assert o1.copied + o2.copied == st.data[st.currentPos .. o2.stream.currentPos];
  }

  /** The operations a codec can issue on the stream. */
  datatype StreamOp = ReadOp(count: nat) | SeekOp(offset: int, origin: SeekOrigin) | TellOp

  /** The record after a sequence of operations (out-of-range arguments are skipped). */
  function Run(st: Stream, ops: seq<StreamOp>): Stream
    requires Valid(st)
    decreases |ops|
  {
    if ops == [] then st
    else
      var st' :=
        match ops[0]
        case ReadOp(n) => if IsSizeT(n) then Read(st, n, true).stream else st
        case SeekOp(off, origin) => if IsInt64(off) then Seek(st, off, origin).1 else st
        case TellOp => st;
      Run(st', ops[1..])
  }

  /** Starting from the freshly opened record, every reachable record keeps
      `0 <= currentPos <= dataSize` and still describes the caller's buffer. */
  lemma {:induction false} RunKeepsInvariant(st: Stream, ops: seq<StreamOp>)
    requires Valid(st)
    ensures Valid(Run(st, ops))
    ensures Run(st, ops).data == st.data
    decreases |ops|
  {
    if ops != [] {
      var st' :=
        match ops[0]
        case ReadOp(n) => if IsSizeT(n) then Read(st, n, true).stream else st
        case SeekOp(off, origin) => if IsInt64(off) then Seek(st, off, origin).1 else st
        case TellOp => st;
      RunKeepsInvariant(st', ops[1..]);
    }
  }

  /** Opening a buffer and reading its whole size returns the buffer. */
  lemma ReadWholeBuffer(data: seq<byte>)
    requires IsSizeT(|data|)
    ensures Read(Open(data), |data|, true).copied == data
    ensures Read(Open(data), |data|, true).returned == |data|
  {
  }
}

=== FILE: queries.dfy ===
/**
  The per-instance queries that translate a libvorbis result into a
  miniaudio result: `seek_to_pcm_frame`, `get_data_format`,
  `get_cursor_in_pcm_frames` and `get_length_in_pcm_frames`. Out-pointers
  are modelled as options: None is a pointer the function never writes
  (null), Some(v) the value it left there.
 */
module Queries {
  import opened Common
  import Lifecycle

  /** libvorbis error codes the seek mapping distinguishes (vorbis/codec.h). */
  const OvEInval: int := -131
  const OvENoSeek: int := -138

  /** `soloud_ma_libvorbis_seek_to_pcm_frame`, given what `ov_pcm_seek` returns. */
  function SeekToPcmFrame(decoder: Option<Lifecycle.Decoder>, seekResult: int): (r: ResultCode)
    ensures decoder.None? ==> r == InvalidArgs
    ensures decoder.Some? ==>
      && (r == Success <==> seekResult == 0)
      && (r == InvalidOperation <==> seekResult == OvENoSeek)
      && (r == InvalidArgs <==> seekResult == OvEInval)
      && (r == Error <==> seekResult != 0 && seekResult != OvENoSeek && seekResult != OvEInval)
  {
    if decoder.None? then InvalidArgs
    else if seekResult != 0 then
      if seekResult == OvENoSeek then InvalidOperation
      else if seekResult == OvEInval then InvalidArgs
      else Error
    else Success
  }

  /** The fields of `vorbis_info` the adapter reads. */
  datatype VorbisInfo = VorbisInfo(channels: nat, rate: nat)

  /** Which out-pointers of `get_data_format` are non-null. */
  datatype Slots = Slots(format: bool, channels: bool, sampleRate: bool, channelMap: bool)

  /** What `get_data_format` returned and left in each out-pointer. */
  datatype FormatReport = FormatReport(
    result: ResultCode,
    format: Option<SampleFormat>,
    channels: Option<nat>,
    sampleRate: Option<nat>,
    channelMap: Option<seq<nat>>)

  /** A channel map of `cap` entries all set to 0 (MA_CHANNEL_NONE). */
  function ZeroMap(cap: nat): (m: seq<nat>)
    ensures |m| == cap && forall i :: 0 <= i < cap ==> m[i] == 0
  {
    seq(cap, _ => 0)
  }

  /** `soloud_ma_libvorbis_get_data_format`. `info` is what `ov_info` returns
      (None for null) and `standardMap` the `cap` entries that
      `soloud_ma_channel_map_init_standard` writes for its channel count. */
  function GetDataFormat(decoder: Option<Lifecycle.Decoder>, slots: Slots, cap: nat,
                         info: Option<VorbisInfo>, standardMap: seq<nat>): (r: FormatReport)
    requires |standardMap| == cap
    // a null out-pointer is never written
    ensures r.format.Some? <==> slots.format
    ensures r.channels.Some? <==> slots.channels
    ensures r.sampleRate.Some? <==> slots.sampleRate
    ensures r.channelMap.Some? <==> slots.channelMap
    ensures r.result == Success || r.result == InvalidOperation
    ensures r.result == Success <==> decoder.Some? && info.Some?
    // no instance: only the defaults
    ensures decoder.None? && slots.format ==> r.format == Some(FormatUnknown)
    // with an instance the format is written before `ov_info` is consulted
    ensures decoder.Some? && slots.format ==> r.format == Some(decoder.value.format)
    ensures r.result == Success && slots.channels ==> r.channels == Some(info.value.channels)
    ensures r.result == Success && slots.sampleRate ==> r.sampleRate == Some(info.value.rate)
    ensures r.result == Success && slots.channelMap ==> r.channelMap == Some(standardMap)
  {
    // defaults for safety
    var format := if slots.format then Some(FormatUnknown) else None;
    var channels := if slots.channels then Some(0) else None;
    var rate := if slots.sampleRate then Some(0) else None;
    var channelMap := if slots.channelMap then Some(ZeroMap(cap)) else None;
    if decoder.None? then FormatReport(InvalidOperation, format, channels, rate, channelMap)
    else
      var format := if slots.format then Some(decoder.value.format) else None;
      if info.None? then FormatReport(InvalidOperation, format, channels, rate, channelMap)
      else
        FormatReport(Success, format,
          if slots.channels then Some(info.value.channels) else None,
          if slots.sampleRate then Some(info.value.rate) else None,
          if slots.channelMap then Some(standardMap) else None)
  }

  /** Whatever makes `get_data_format` fail, the channel count, sample rate
      and channel map it leaves are the zero defaults, never stale values. */
  lemma DataFormatFailureLeavesDefaults(decoder: Option<Lifecycle.Decoder>, slots: Slots, cap: nat,
                                        info: Option<VorbisInfo>, standardMap: seq<nat>)
    requires |standardMap| == cap
    ensures var r := GetDataFormat(decoder, slots, cap, info, standardMap);
            r.result != Success ==>
              && (slots.channels ==> r.channels == Some(0))
              && (slots.sampleRate ==> r.sampleRate == Some(0))
              && (slots.channelMap ==> r.channelMap == Some(ZeroMap(cap)))
  {
  }

  /** A decoder whose `ov_info` is unavailable still reports its output format. */
  lemma DataFormatWithoutInfoKeepsFormat(d: Lifecycle.Decoder, cap: nat)
    ensures var r := GetDataFormat(Some(d), Slots(true, true, true, false), cap, None, seq(cap, _ => 1));
            r.result == InvalidOperation && r.format == Some(d.format) && r.channels == Some(0) && r.sampleRate == Some(0)
  {
  }

  /** What a position query returned and left in its out-pointer. */
  datatype PositionReport = PositionReport(result: ResultCode, value: Option<nat>)

  /** `soloud_ma_libvorbis_get_cursor_in_pcm_frames` (with `codecValue` from
      `ov_pcm_tell`) and `soloud_ma_libvorbis_get_length_in_pcm_frames` (with
      `codecValue` from `ov_pcm_total`): the two are the same mapping. */
  function PositionQuery(hasOut: bool, decoder: Option<Lifecycle.Decoder>, codecValue: int): (r: PositionReport)
    ensures !hasOut ==> r == PositionReport(InvalidArgs, None)
    // once the out-pointer is known, it is zeroed before anything can fail
    ensures hasOut ==> r.value.Some?
    ensures hasOut && decoder.None? ==> r == PositionReport(InvalidArgs, Some(0))
    ensures r.result == Success <==> hasOut && decoder.Some? && codecValue >= 0
    ensures r.result == Success ==> r.value == Some(codecValue)
    // a negative codec value is a stream-integrity error, and the output stays 0
    ensures hasOut && decoder.Some? && codecValue < 0 ==> r == PositionReport(InvalidFile, Some(0))
  {
    if !hasOut then PositionReport(InvalidArgs, None)
    else if decoder.None? then PositionReport(InvalidArgs, Some(0))
    else if codecValue < 0 then PositionReport(InvalidFile, Some(0))
    else PositionReport(Success, Some(codecValue))
  }

  /** A reported position is never ambiguous: whenever the query did not
      succeed, a non-null out-pointer reads 0. */
  lemma PositionFailureReadsZero(hasOut: bool, decoder: Option<Lifecycle.Decoder>, codecValue: int)
    ensures var r := PositionQuery(hasOut, decoder, codecValue);
            r.result != Success && hasOut ==> r.value == Some(0)
  {
  }
}

=== FILE: read_loop.dfy ===
/**
  The PCM read loop (`soloud_ma_libvorbis_read_pcm_frames`). The codec is a
  finite sequence of replies, one per `ov_read_float` (f32 output, counted in
  frames) or `ov_read` (s16 output, counted in bytes) call, each carrying the
  bytes that call leaves in the output buffer (interleaved by the adapter on
  the f32 path). The output buffer is a byte sequence the caller sized for
  `frameCount` frames; every chunk is written at `total * bytesPerFrame`.
 */
module ReadLoop {
  import opened Common
  import Lifecycle
  import opened FrameArith

  /** The most frames one codec call is asked for. */
  const ChunkFrames: nat := 1024

  /** One codec call: its result (frames on the f32 path, bytes on the s16
      path, negative on a decode error) and the bytes it writes. */
  datatype CodecReply = CodecReply(result: int, payload: seq<byte>)

  /** Where one codec call wrote (byte offset) and how much it asked for
      (frames on the f32 path, bytes on the s16 path). */
  datatype ChunkCall = ChunkCall(offset: nat, request: nat)

  /** The request made once `total` of `frameCount` frames are read. */
  function ChunkRequest(isF32: bool, bpf: nat, frameCount: nat, total: nat): nat
    requires total < frameCount
  {
    var frames := Min(ChunkFrames, frameCount - total);
    if isF32 then frames else Scale(frames, bpf)
  }

  /** Frames a non-negative result adds to the total: the f32 path counts
      frames, the s16 path counts bytes and divides by the frame size. */
  function FramesOf(isF32: bool, bpf: nat, result: nat): nat
    requires bpf > 0
  {
    if isF32 then result else FramesIn(result, bpf)
  }

  /** A reply a codec can give to `request`: an error, or a count no larger
      than the request with the bytes that count stands for. */
  predicate Honest(isF32: bool, bpf: nat, request: nat, r: CodecReply)
  {
    r.result < 0 || (r.result <= request && |r.payload| == (if isF32 then Scale(r.result, bpf) else r.result))
  }

  /** Frames accumulated by a run of replies in which no error occurred. */
  function Accumulated(isF32: bool, bpf: nat, replies: seq<CodecReply>): nat
    requires bpf > 0
    decreases |replies|
  {
    if replies == [] then 0
    else (if replies[0].result > 0 then FramesOf(isF32, bpf, replies[0].result) else 0) + Accumulated(isF32, bpf, replies[1..])
  }

  /** The bytes delivered by a run of replies, in call order. */
  function Delivered(replies: seq<CodecReply>): seq<byte>
    decreases |replies|
  {
    if replies == [] then []
    else (if replies[0].result >= 0 then replies[0].payload else []) + Delivered(replies[1..])
  }

  /** The codec answers every call the loop makes from `total` honestly.
      Being a finite sequence, it also bounds the number of calls: this stands
      for the codec eventually returning 0 or an error. */
  predicate Feeds(isF32: bool, bpf: nat, frameCount: nat, total: nat, codec: seq<CodecReply>)
    requires bpf > 0
    decreases |codec|
  {
    total >= frameCount ||
    (&& |codec| > 0
     && Honest(isF32, bpf, ChunkRequest(isF32, bpf, frameCount, total), codec[0])
     && (codec[0].result <= 0 || Feeds(isF32, bpf, frameCount, total + FramesOf(isF32, bpf, codec[0].result), codec[1..])))
  }

  /** Every non-negative s16 result is a whole number of frames (f32 results
      count frames, so they always are). */
  predicate WholeFrames(isF32: bool, bpf: nat, codec: seq<CodecReply>)
    requires bpf > 0
  {
    isF32 || forall i :: 0 <= i < |codec| && codec[i].result >= 0 ==> codec[i].result % bpf == 0
  }

  /** WholeFrames for a single reply. */
  predicate WholeFramesReply(isF32: bool, bpf: nat, r: CodecReply)
    requires bpf > 0
  {
    isF32 || r.result < 0 || r.result % bpf == 0
  }

  /** The result of a read: status, frames read, the output buffer and the
      codec calls made, in order. */
  datatype Outcome = Outcome(status: ResultCode, framesRead: nat, output: seq<byte>, calls: seq<ChunkCall>)

  /** An outcome reached after the calls `done` were already made. */
  function Resume(done: seq<ChunkCall>, o: Outcome): Outcome
  {
    o.(calls := done + o.calls)
  }

  /** Resuming after one more call is resuming after that call first. */
  lemma ResumeSnoc(done: seq<ChunkCall>, c: ChunkCall, o: Outcome)
    ensures Resume(done + [c], o) == Resume(done, Resume([c], o))
  {
    assert (done + [c]) + o.calls == done + ([c] + o.calls);
  }

  /** The call made once `total` frames are read: it writes at the byte
      offset of frame `total` and asks for the next chunk. */
  function CallAt(isF32: bool, bpf: nat, frameCount: nat, total: nat): ChunkCall
    requires total < frameCount
  {
    ChunkCall(Scale(total, bpf), ChunkRequest(isF32, bpf, frameCount, total))
  }

  /** `out` with `payload` written at byte `offset`. */
  function Write(out: seq<byte>, offset: nat, payload: seq<byte>): (r: seq<byte>)
    requires offset + |payload| <= |out|
    ensures |r| == |out|
  {
    out[..offset] + payload + out[offset + |payload|..]
  }

  /** What `Write` leaves: the bytes before `offset`, then `payload`, then
      the bytes after it, all as they were. */
  lemma WriteSlices(out: seq<byte>, offset: nat, payload: seq<byte>)
    requires offset + |payload| <= |out|
    ensures var r := Write(out, offset, payload);
            && r[..offset] == out[..offset]
            && r[offset..offset + |payload|] == payload
            && r[offset + |payload|..] == out[offset + |payload|..]
  {
  }

  /** An honest non-negative reply keeps the total within `frameCount` and
      its bytes within the caller's buffer. */
  lemma HonestStep(isF32: bool, bpf: nat, frameCount: nat, total: nat, r: CodecReply)
    requires bpf > 0 && total < frameCount
    requires Honest(isF32, bpf, ChunkRequest(isF32, bpf, frameCount, total), r) && r.result >= 0
    ensures total + FramesOf(isF32, bpf, r.result) <= frameCount
    ensures Scale(total, bpf) + |r.payload| <= Scale(frameCount, bpf)
    ensures WholeFramesReply(isF32, bpf, r) ==>
      Scale(total + FramesOf(isF32, bpf, r.result), bpf) == Scale(total, bpf) + |r.payload|
  {
    var frames := Min(ChunkFrames, frameCount - total);
    var n: nat := r.result;
    ScaleAdd(total, frames, bpf);
    ScaleMono(total + frames, frameCount, bpf);
    ScaleAdd(total, FramesOf(isF32, bpf, n), bpf);
    if isF32 {
      ScaleMono(n, frames, bpf);
    } else {
      FramesInBound(n, frames, bpf);
      WholeFramesExact(n, bpf);
    }
  }

  /** The loop from `total` frames on, as a recursive reference definition. */
  function Loop(isF32: bool, bpf: nat, frameCount: nat, total: nat, out: seq<byte>, codec: seq<CodecReply>): (o: Outcome)
    requires bpf > 0 && total <= frameCount && |out| == Scale(frameCount, bpf)
    requires Feeds(isF32, bpf, frameCount, total, codec)
    ensures |o.output| == |out|
    ensures |o.calls| <= |codec|
    ensures total <= o.framesRead <= frameCount
    ensures Scale(total, bpf) <= Scale(o.framesRead, bpf) <= |out|
    decreases |codec|
  {
    ScaleMono(total, frameCount, bpf);
    if total >= frameCount then Outcome(Success, total, out, [])
    else
      var r := codec[0];
      var call := CallAt(isF32, bpf, frameCount, total);
      if r.result < 0 then Outcome(Error, total, out, [call])
      // an empty chunk carries no bytes, so the buffer and the total stay as they are
      else if r.result == 0 then Outcome(AtEnd, total, out, [call])
      else
        HonestStep(isF32, bpf, frameCount, total, r);
        ScaleMono(total, total + FramesOf(isF32, bpf, r.result), bpf);
        Resume([call], Loop(isF32, bpf, frameCount, total + FramesOf(isF32, bpf, r.result),
                            Write(out, Scale(total, bpf), r.payload), codec[1..]))
  }

  /** One call of the loop that returns a chunk: it fits the caller's buffer
      and the total stays within the request. */
  lemma LoopStepFits(isF32: bool, bpf: nat, frameCount: nat, total: nat, codec: seq<CodecReply>)
    requires bpf > 0 && total < frameCount
    requires Feeds(isF32, bpf, frameCount, total, codec)
    ensures |codec| > 0
    ensures codec[0].result >= 0 ==>
      && total + FramesOf(isF32, bpf, codec[0].result) <= frameCount
      && Scale(total, bpf) + |codec[0].payload| <= Scale(frameCount, bpf)
  {
    if codec[0].result >= 0 {
      HonestStep(isF32, bpf, frameCount, total, codec[0]);
    }
  }

  /** One call of the loop that meets a decode error or an empty chunk: the
      call is recorded and the run ends there. */
  lemma LoopStepLast(isF32: bool, bpf: nat, frameCount: nat, total: nat, out: seq<byte>, codec: seq<CodecReply>)
    requires bpf > 0 && total < frameCount && |out| == Scale(frameCount, bpf)
    requires Feeds(isF32, bpf, frameCount, total, codec)
    requires |codec| > 0 && codec[0].result <= 0
    ensures codec[0].result == 0 ==> codec[0].payload == []
    ensures Loop(isF32, bpf, frameCount, total, out, codec)
            == Outcome(if codec[0].result < 0 then Error else AtEnd, total, out, [CallAt(isF32, bpf, frameCount, total)])
  {
  }

  /** One productive call of the loop, followed by the rest of the run. */
  lemma LoopStepMore(isF32: bool, bpf: nat, frameCount: nat, total: nat, out: seq<byte>, codec: seq<CodecReply>)
    requires bpf > 0 && total < frameCount && |out| == Scale(frameCount, bpf)
    requires Feeds(isF32, bpf, frameCount, total, codec)
    requires |codec| > 0 && codec[0].result > 0
    ensures total + FramesOf(isF32, bpf, codec[0].result) <= frameCount
    ensures Scale(total, bpf) + |codec[0].payload| <= |out|
    ensures Feeds(isF32, bpf, frameCount, total + FramesOf(isF32, bpf, codec[0].result), codec[1..])
    ensures Loop(isF32, bpf, frameCount, total, out, codec)
            == Resume([CallAt(isF32, bpf, frameCount, total)],
                      Loop(isF32, bpf, frameCount, total + FramesOf(isF32, bpf, codec[0].result),
                           Write(out, Scale(total, bpf), codec[0].payload), codec[1..]))
  {
    var r := codec[0];
    HonestStep(isF32, bpf, frameCount, total, r);
    var total' := total + FramesOf(isF32, bpf, r.result);
    assert Feeds(isF32, bpf, frameCount, total', codec[1..]);
    var out' := Write(out, Scale(total, bpf), r.payload);
    assert Loop(isF32, bpf, frameCount, total, out, codec)
           == Resume([CallAt(isF32, bpf, frameCount, total)], Loop(isF32, bpf, frameCount, total', out', codec[1..]));
  }

  /** How a run of the loop from `total` over `codec` may end: it never
      overshoots the request, succeeds exactly when the request is filled,
      and otherwise stops at the first error or zero-length chunk, with every
      earlier call having made progress. */
  predicate EndsProperly(isF32: bool, bpf: nat, frameCount: nat, total: nat, codec: seq<CodecReply>, o: Outcome)
    requires bpf > 0
  {
    var n := |o.calls|;
    && n <= |codec|
    && (n == 0 <==> total >= frameCount)
    && (o.status == Success || o.status == AtEnd || o.status == Error)
    && (o.status == Success <==> o.framesRead == frameCount)
    && (o.status == Error <==> n > 0 && codec[n - 1].result < 0)
    && (o.status == AtEnd <==> n > 0 && codec[n - 1].result == 0)
    && (forall i :: 0 <= i < n - 1 ==> codec[i].result > 0)
    && o.framesRead == total + Accumulated(isF32, bpf, codec[..n])
  }

  /** One productive call in front of a properly ending run is a properly ending run. */
  lemma EndsProperlyCons(isF32: bool, bpf: nat, frameCount: nat, total: nat, codec: seq<CodecReply>, c: ChunkCall, o': Outcome)
    requires bpf > 0 && |codec| > 0 && codec[0].result > 0 && total < frameCount
    requires EndsProperly(isF32, bpf, frameCount, total + FramesOf(isF32, bpf, codec[0].result), codec[1..], o')
    ensures EndsProperly(isF32, bpf, frameCount, total, codec, Resume([c], o'))
  {
    var rest := codec[1..];
    var o := Resume([c], o');
    var n := |o.calls|;
    assert rest[..0] == [];
    assert codec[..n][1..] == rest[..n - 1];
    if n > 1 {
      assert codec[n - 1] == rest[n - 2];
    }
    forall i | 0 <= i < n - 1
      ensures codec[i].result > 0
    {
      if i > 0 { assert codec[i] == rest[i - 1]; }
    }
  }

  /** The loop ends properly from any starting point the codec feeds. */
  lemma {:induction false} LoopOutcome(isF32: bool, bpf: nat, frameCount: nat, total: nat, out: seq<byte>, codec: seq<CodecReply>)
    requires bpf > 0 && total <= frameCount && |out| == Scale(frameCount, bpf)
    requires Feeds(isF32, bpf, frameCount, total, codec)
    ensures EndsProperly(isF32, bpf, frameCount, total, codec, Loop(isF32, bpf, frameCount, total, out, codec))
    decreases |codec|
  {
    if total >= frameCount {
      assert codec[..0] == [];
    } else {
      LoopStepFits(isF32, bpf, frameCount, total, codec);
      var r := codec[0];
      if r.result <= 0 {
        LoopStepLast(isF32, bpf, frameCount, total, out, codec);
        assert codec[..1] == [r] && codec[..1][1..] == [];
      } else {
        LoopStepMore(isF32, bpf, frameCount, total, out, codec);
        var out' := Write(out, Scale(total, bpf), r.payload);
        var total' := total + FramesOf(isF32, bpf, r.result);
        LoopOutcome(isF32, bpf, frameCount, total', out', codec[1..]);
        EndsProperlyCons(isF32, bpf, frameCount, total, codec, CallAt(isF32, bpf, frameCount, total),
                         Loop(isF32, bpf, frameCount, total', out', codec[1..]));
      }
    }
  }

  /** The calls of a run from `total`: call `i` is made once the first `i`
      replies have been accumulated, at that frame's byte offset, for at most
      1024 frames of what is left. */
  predicate Traced(isF32: bool, bpf: nat, frameCount: nat, total: nat, codec: seq<CodecReply>, calls: seq<ChunkCall>)
    requires bpf > 0
  {
    && |calls| <= |codec|
    && forall i :: 0 <= i < |calls| ==>
         && total + Accumulated(isF32, bpf, codec[..i]) < frameCount
         && calls[i] == CallAt(isF32, bpf, frameCount, total + Accumulated(isF32, bpf, codec[..i]))
  }

  /** One productive call in front of a traced run is a traced run. */
  lemma TracedCons(isF32: bool, bpf: nat, frameCount: nat, total: nat, codec: seq<CodecReply>, calls: seq<ChunkCall>)
    requires bpf > 0 && |codec| > 0 && codec[0].result > 0 && total < frameCount
    requires Traced(isF32, bpf, frameCount, total + FramesOf(isF32, bpf, codec[0].result), codec[1..], calls)
    ensures Traced(isF32, bpf, frameCount, total, codec, [CallAt(isF32, bpf, frameCount, total)] + calls)
  {
    var all := [CallAt(isF32, bpf, frameCount, total)] + calls;
    assert codec[..0] == [];
    forall i | 1 <= i < |all|
      ensures total + Accumulated(isF32, bpf, codec[..i]) < frameCount
      ensures all[i] == CallAt(isF32, bpf, frameCount, total + Accumulated(isF32, bpf, codec[..i]))
    {
      assert codec[..i][1..] == codec[1..][..i - 1];
      assert all[i] == calls[i - 1];
    }
  }

  /** Every call of the loop is the one `Traced` describes. */
  lemma {:induction false} LoopTrace(isF32: bool, bpf: nat, frameCount: nat, total: nat, out: seq<byte>, codec: seq<CodecReply>)
    requires bpf > 0 && total <= frameCount && |out| == Scale(frameCount, bpf)
    requires Feeds(isF32, bpf, frameCount, total, codec)
    ensures Traced(isF32, bpf, frameCount, total, codec, Loop(isF32, bpf, frameCount, total, out, codec).calls)
    decreases |codec|
  {
    if total < frameCount {
      LoopStepFits(isF32, bpf, frameCount, total, codec);
      var r := codec[0];
      assert codec[..0] == [];
      if r.result <= 0 {
        LoopStepLast(isF32, bpf, frameCount, total, out, codec);
      } else {
        LoopStepMore(isF32, bpf, frameCount, total, out, codec);
        var out' := Write(out, Scale(total, bpf), r.payload);
        var total' := total + FramesOf(isF32, bpf, r.result);
        LoopTrace(isF32, bpf, frameCount, total', out', codec[1..]);
        TracedCons(isF32, bpf, frameCount, total, codec, Loop(isF32, bpf, frameCount, total', out', codec[1..]).calls);
      }
    }
  }

  /** Writing `p` at `a` and then keeping the first `a + |p|` bytes is the
      same as splicing `p` (and whatever follows it) into the old buffer. */
  lemma Splice(out: seq<byte>, a: nat, p: seq<byte>, d: seq<byte>, e: nat)
    requires a + |p| <= e <= |out|
    ensures Write(out, a, p)[..a + |p|] + d + Write(out, a, p)[e..] == out[..a] + (p + d) + out[e..]
  {
    var w := Write(out, a, p);
    WriteSlices(out, a, p);
    assert w[..a + |p|] == out[..a] + p;
    assert w[e..] == out[e..];
  }

  /** The bytes of the first `n + 1` replies: the first reply's, then the rest's. */
  lemma DeliveredCons(codec: seq<CodecReply>, n: nat)
    requires n < |codec|
    ensures Delivered(codec[..n + 1])
            == (if codec[0].result >= 0 then codec[0].payload else []) + Delivered(codec[1..][..n])
  {
    assert codec[..n + 1][1..] == codec[1..][..n];
  }

  /** Whole-frame replies stay whole-frame after the first is consumed. */
  lemma WholeFramesTail(isF32: bool, bpf: nat, codec: seq<CodecReply>)
    requires bpf > 0 && |codec| > 0 && WholeFrames(isF32, bpf, codec)
    ensures WholeFramesReply(isF32, bpf, codec[0])
    ensures WholeFrames(isF32, bpf, codec[1..])
  {
    if !isF32 {
      assert codec[0].result >= 0 ==> codec[0].result % bpf == 0;
      forall i | 0 <= i < |codec| - 1 && codec[1..][i].result >= 0
        ensures codec[1..][i].result % bpf == 0
      {
        assert codec[1..][i] == codec[i + 1];
      }
    }
  }

  /** What the loop leaves in the buffer: the bytes before `total` untouched,
      then every delivered chunk in order, then the caller's old bytes. */
  lemma {:induction false} LoopContents(isF32: bool, bpf: nat, frameCount: nat, total: nat, out: seq<byte>, codec: seq<CodecReply>)
    requires bpf > 0 && total <= frameCount && |out| == Scale(frameCount, bpf)
    requires Feeds(isF32, bpf, frameCount, total, codec)
    requires WholeFrames(isF32, bpf, codec)
    ensures var o := Loop(isF32, bpf, frameCount, total, out, codec);
            o.output == out[..Scale(total, bpf)] + Delivered(codec[..|o.calls|]) + out[Scale(o.framesRead, bpf)..]
    decreases |codec|, 1
  {
    if total >= frameCount {
      assert codec[..0] == [];
    } else {
      LoopStepFits(isF32, bpf, frameCount, total, codec);
      if codec[0].result <= 0 {
        ContentsLast(isF32, bpf, frameCount, total, out, codec);
      } else {
        ContentsStep(isF32, bpf, frameCount, total, out, codec);
      }
    }
  }

  /** The last call of LoopContents: an error or an empty chunk. */
  lemma ContentsLast(isF32: bool, bpf: nat, frameCount: nat, total: nat, out: seq<byte>, codec: seq<CodecReply>)
    requires bpf > 0 && total < frameCount && |out| == Scale(frameCount, bpf)
    requires Feeds(isF32, bpf, frameCount, total, codec)
    requires |codec| > 0 && codec[0].result <= 0
    ensures var o := Loop(isF32, bpf, frameCount, total, out, codec);
            o.output == out[..Scale(total, bpf)] + Delivered(codec[..|o.calls|]) + out[Scale(o.framesRead, bpf)..]
  {
    LoopStepLast(isF32, bpf, frameCount, total, out, codec);
    DeliveredCons(codec, 0);
    assert codec[1..][..0] == [];
    var a := Scale(total, bpf);
    assert out == out[..a] + out[a..];
  }

  /** The productive case of LoopContents. */
  lemma {:induction false} ContentsStep(isF32: bool, bpf: nat, frameCount: nat, total: nat, out: seq<byte>, codec: seq<CodecReply>)
    requires bpf > 0 && total < frameCount && |out| == Scale(frameCount, bpf)
    requires Feeds(isF32, bpf, frameCount, total, codec)
    requires WholeFrames(isF32, bpf, codec)
    requires |codec| > 0 && codec[0].result > 0
    ensures var o := Loop(isF32, bpf, frameCount, total, out, codec);
            o.output == out[..Scale(total, bpf)] + Delivered(codec[..|o.calls|]) + out[Scale(o.framesRead, bpf)..]
    decreases |codec|, 0
  {
    var r := codec[0];
    var rest := codec[1..];
    LoopStepMore(isF32, bpf, frameCount, total, out, codec);
    HonestStep(isF32, bpf, frameCount, total, r);
    WholeFramesTail(isF32, bpf, codec);
    var a := Scale(total, bpf);
    var out' := Write(out, a, r.payload);
    var total' := total + FramesOf(isF32, bpf, r.result);
    assert Scale(total', bpf) == a + |r.payload|;
    var o := Loop(isF32, bpf, frameCount, total, out, codec);
    var o' := Loop(isF32, bpf, frameCount, total', out', rest);
    assert o == Resume([CallAt(isF32, bpf, frameCount, total)], o');
    var n := |o'.calls|;
    var e := Scale(o'.framesRead, bpf);
    LoopContents(isF32, bpf, frameCount, total', out', rest);
    assert o'.output == out'[..a + |r.payload|] + Delivered(rest[..n]) + out'[e..];
    DeliveredCons(codec, n);
    Splice(out, a, r.payload, Delivered(rest[..n]), e);
  }

  /** One pass of the read loop's body: one codec call, the chunk written
      at the current frame, and whether the loop goes on. */
  method ReadChunk(isF32: bool, bpf: nat, frameCount: nat, total: nat, output: seq<byte>, rest: seq<CodecReply>)
    returns (status: ResultCode, more: bool, total': nat, output': seq<byte>, call: ChunkCall)
    requires bpf > 0 && total < frameCount && |output| == Scale(frameCount, bpf)
    requires Feeds(isF32, bpf, frameCount, total, rest)
    ensures |rest| > 0 && |output'| == |output| && total' <= frameCount
    ensures !more ==> status == Error || status == AtEnd
    ensures !more ==> Loop(isF32, bpf, frameCount, total, output, rest) == Outcome(status, total', output', [call])
    ensures more ==> status == Success && Feeds(isF32, bpf, frameCount, total', rest[1..])
    ensures more ==> Loop(isF32, bpf, frameCount, total, output, rest) == Resume([call], Loop(isF32, bpf, frameCount, total', output', rest[1..]))
  {
    LoopStepFits(isF32, bpf, frameCount, total, rest);
    var framesToRead := Min(ChunkFrames, frameCount - total);
    var request := if isF32 then framesToRead else Scale(framesToRead, bpf);
    var r := rest[0];
    call := ChunkCall(Scale(total, bpf), request);
    assert call == CallAt(isF32, bpf, frameCount, total);
    if r.result < 0 {
      LoopStepLast(isF32, bpf, frameCount, total, output, rest);
      return Error, false, total, output, call;
    }
    // the chunk is written (interleaved on the f32 path) before it is tested for zero
    output' := Write(output, Scale(total, bpf), r.payload);
    total' := total + FramesOf(isF32, bpf, r.result);
    if r.result == 0 {
      LoopStepLast(isF32, bpf, frameCount, total, output, rest);
      assert output' == output;
      return AtEnd, false, total', output', call;
    }
    LoopStepMore(isF32, bpf, frameCount, total, output, rest);
    status, more := Success, true;
  }

  /** The read loop proper, from frame 0 of a positive request. */
  method RunChunks(isF32: bool, bpf: nat, out: seq<byte>, frameCount: nat, codec: seq<CodecReply>)
    returns (status: ResultCode, total: nat, output: seq<byte>, calls: seq<ChunkCall>)
    requires bpf > 0 && |out| == Scale(frameCount, bpf)
    requires Feeds(isF32, bpf, frameCount, 0, codec)
    ensures Outcome(status, total, output, calls) == Loop(isF32, bpf, frameCount, 0, out, codec)
  {
    ghost var whole := Loop(isF32, bpf, frameCount, 0, out, codec);
    var rest := codec;  // the replies the codec has yet to give
    status, total, output, calls := Success, 0, out, [];
    while total < frameCount
      invariant total <= frameCount && |output| == |out| && status == Success
      invariant Feeds(isF32, bpf, frameCount, total, rest)
      invariant whole == Resume(calls, Loop(isF32, bpf, frameCount, total, output, rest))
      decreases |rest|
    {
      var more, total', output', call;
      status, more, total', output', call := ReadChunk(isF32, bpf, frameCount, total, output, rest);
      ghost var next := if more then Loop(isF32, bpf, frameCount, total', output', rest[1..]) else Outcome(status, total', output', []);
      assert [call] + [] == [call];
      ResumeSnoc(calls, call, next);
      output, total, calls := output', total', calls + [call];
      if !more {
        break;
      }
      rest := rest[1..];
    }
    assert calls + [] == calls;
  }

  /** `soloud_ma_libvorbis_read_pcm_frames`. `decoder` is the instance (None
      for null), `bpf` the bytes per output frame for its format and channel
      count, `out` the caller's buffer (never checked for null: the caller
      must supply `frameCount` frames of room) and `codec` the replies the
      codec gives in order. Returns the status, the value stored through
      `pFramesRead`, the buffer afterwards and every codec call made. */
  method ReadPcmFrames(decoder: Option<Lifecycle.Decoder>, bpf: nat, out: seq<byte>, frameCount: nat, codec: seq<CodecReply>)
    returns (status: ResultCode, framesRead: nat, output: seq<byte>, calls: seq<ChunkCall>)
    requires bpf > 0 && |out| == Scale(frameCount, bpf)
    requires decoder.Some? ==> Feeds(decoder.value.format == F32, bpf, frameCount, 0, codec)
    // argument checks: a zero-frame request or a null instance, nothing read
    ensures frameCount == 0 || decoder.None? ==>
      status == InvalidArgs && framesRead == 0 && output == out && calls == []
    // otherwise the run is the reference loop from frame 0, and it ends and calls as described
    ensures frameCount > 0 && decoder.Some? ==>
      var isF32 := decoder.value.format == F32;
      var o := Outcome(status, framesRead, output, calls);
      && o == Loop(isF32, bpf, frameCount, 0, out, codec)
      && EndsProperly(isF32, bpf, frameCount, 0, codec, o)
      && Traced(isF32, bpf, frameCount, 0, codec, calls)
  {
    if frameCount == 0 || decoder.None? {
      return InvalidArgs, 0, out, [];
    }
    var isF32 := decoder.value.format == F32;
    status, framesRead, output, calls := RunChunks(isF32, bpf, out, frameCount, codec);
    LoopOutcome(isF32, bpf, frameCount, 0, out, codec);
    LoopTrace(isF32, bpf, frameCount, 0, out, codec);
    // unreachable once the request is positive: SUCCESS means every frame was read
    if status == Success && framesRead == 0 {
      status := AtEnd;
    }
  }

  /** The buffer after a read: for f32 output, or s16 output in whole frames,
      the first `framesRead` frames hold the delivered chunks in call order and
      everything after them is the caller's old content. */
  lemma ReadContents(decoder: Lifecycle.Decoder, bpf: nat, out: seq<byte>, frameCount: nat, codec: seq<CodecReply>)
    requires bpf > 0 && |out| == Scale(frameCount, bpf)
    requires Feeds(decoder.format == F32, bpf, frameCount, 0, codec)
    requires WholeFrames(decoder.format == F32, bpf, codec)
    ensures var o := Loop(decoder.format == F32, bpf, frameCount, 0, out, codec);
            o.output == Delivered(codec[..|o.calls|]) + out[Scale(o.framesRead, bpf)..]
  {
    LoopContents(decoder.format == F32, bpf, frameCount, 0, out, codec);
  }

  /** A partial chunk (two frames of ten) followed by an end-of-stream chunk
      reports AT_END with the partial count, not SUCCESS. */
  lemma PartialThenEndIsAtEnd(isF32: bool)
    ensures var codec := [CodecReply(if isF32 then 2 else 8, seq(8, _ => 0)), CodecReply(0, [])];
            var o := Loop(isF32, 4, 10, 0, seq(40, _ => 1), codec);
            o.status == AtEnd && o.framesRead == 2
  {
    var codec := [CodecReply(if isF32 then 2 else 8, seq(8, _ => 0)), CodecReply(0, [])];
    assert codec[1..][1..] == [];
    assert Feeds(isF32, 4, 10, 0, codec);
  }

  /** On the s16 path a chunk shorter than one frame is written to the buffer
      but not counted; when the next call ends the stream, those bytes stay
      there, past the `framesRead` the caller is given. */
  lemma PartialFrameLeftBehind()
    ensures var codec := [CodecReply(3, [7, 7, 7]), CodecReply(0, [])];
            var o := Loop(false, 4, 1, 0, [0, 0, 0, 0], codec);
            o.status == AtEnd && o.framesRead == 0 && o.output == [7, 7, 7, 0]
  {
    var codec := [CodecReply(3, [7, 7, 7]), CodecReply(0, [])];
    assert codec[1..][1..] == [];
    assert Feeds(false, 4, 1, 0, codec);
  }
}

=== FILE: rewrite.dfy ===
/**
  The symbol-namespacing rewrite applied to each source file: every `MA_`
  at a word boundary becomes `SOLOUD_MA_`, then every `ma_` at a word
  boundary that does not follow `soloud_` becomes `soloud_ma_`. Each pass is
  a regular-expression substitution with Python's `re.sub` semantics: a
  left-to-right scan that replaces every non-overlapping match, judging each
  candidate (its boundary and its look-behind) against the text as it was
  before the pass. `\w` is taken over ASCII.
 */
module Rewrite {
  import opened Common

  /** `\w`: ASCII letters, digits and the underscore. */
  predicate IsWordChar(c: char)
  {
    ('a' <= c <= 'z') || ('A' <= c <= 'Z') || ('0' <= c <= '9') || c == '_'
  }

  /** One substitution: the pattern `(?<!notAfter)\blit` (no look-behind
      when `notAfter` is None) and its replacement text. */
  datatype Rule = Rule(lit: string, rep: string, notAfter: Option<string>)

  /** `re.sub(r'\bMA_', 'SOLOUD_MA_', ...)`. */
  const UpperRule: Rule := Rule("MA_", "SOLOUD_MA_", None)

  /** `re.sub(r'(?<!soloud_)\bma_', 'soloud_ma_', ...)`. */
  const LowerRule: Rule := Rule("ma_", "soloud_ma_", Some("soloud_"))

  /** `\b` at position `i`: exactly one of the characters around it is a word
      character (a position outside the text counts as a non-word one). */
  predicate Boundary(s: string, i: nat)
    requires i <= |s|
  {
    (i > 0 && IsWordChar(s[i - 1])) != (i < |s| && IsWordChar(s[i]))
  }

  /** The negative look-behind `(?<!p)` at position `i`. */
  predicate NotAfter(s: string, i: nat, p: Option<string>)
    requires i <= |s|
  {
    p.None? || !(|p.value| <= i && s[i - |p.value|..i] == p.value)
  }

  /** The rule's pattern matches the text at position `i`. */
  predicate MatchAt(s: string, i: nat, r: Rule)
  {
    && i + |r.lit| <= |s|
    && s[i..i + |r.lit|] == r.lit
    && Boundary(s, i)
    && NotAfter(s, i, r.notAfter)
  }

  /** The pattern matches somewhere in the text. */
  predicate HasMatch(s: string, r: Rule)
  {
    exists j :: 0 <= j < |s| && MatchAt(s, j, r)
  }

  /** The scan of `re.sub` from position `i`: at a match, emit the
      replacement and resume after the matched text; otherwise copy one
      character. */
  function SubFrom(s: string, i: nat, r: Rule): string
    requires |r.lit| > 0 && i <= |s|
    decreases |s| - i
  {
    if i == |s| then []
    else if MatchAt(s, i, r) then r.rep + SubFrom(s, i + |r.lit|, r)
    else [s[i]] + SubFrom(s, i + 1, r)
  }

  /** Text without a match from `i` on is copied unchanged. */
  lemma {:induction false} SubFromIdentity(s: string, i: nat, r: Rule)
    requires |r.lit| > 0 && i <= |s|
    requires forall j :: i <= j < |s| ==> !MatchAt(s, j, r)
    ensures SubFrom(s, i, r) == s[i..]
    decreases |s| - i
  {
    if i < |s| {
      SubFromIdentity(s, i + 1, r);
      assert s[i..] == [s[i]] + s[i + 1..];
    }
  }

  /** `re.sub` of one rule over the whole text. */
  function Sub(s: string, r: Rule): (t: string)
    requires |r.lit| > 0
    // text without a match is left as it is
    ensures !HasMatch(s, r) ==> t == s
  {
    if HasMatch(s, r) then SubFrom(s, 0, r)
    else
      SubFromIdentity(s, 0, r);
      assert s[0..] == s;
      SubFrom(s, 0, r)
  }

  /** The content transform of `namespace_file`: the upper-case pass, then
      the lower-case pass over its output. */
  function Namespace(s: string): (t: string)
    // replacements are longer than what they replace: nothing is lost
    ensures |t| >= |s|
  {
    UpperRuleShape();
    LowerRuleShape();
    var u := Sub(s, UpperRule);
    SubFromGrows(s, 0, UpperRule);
    SubFromGrows(u, 0, LowerRule);
    assert s[0..] == s && u[0..] == u;
    Sub(u, LowerRule)
  }

  // ---------------------------------------------------------------------
  // Rules of the shape both passes have.
  // ---------------------------------------------------------------------

  /** A literal made of word characters (so `\b` in front of it means "not
      after a word character"), a replacement that is longer and ends with
      the literal, and a look-behind, if any, that ends in a word character. */
  predicate WordRule(r: Rule)
  {
    && |r.lit| > 0
    && (forall k :: 0 <= k < |r.lit| ==> IsWordChar(r.lit[k]))
    && |r.rep| > |r.lit|
    && r.rep[|r.rep| - |r.lit|..] == r.lit
    && (r.notAfter.Some? ==> |r.notAfter.value| > 0 && IsWordChar(r.notAfter.value[|r.notAfter.value| - 1]))
  }

  /** Every occurrence of `lit`'s first character in `x` follows a word
      character (`prev` being the character before `x`, if any). */
  predicate Shielded(prev: Option<char>, x: string, lit: string)
    requires |lit| > 0
  {
    forall k :: 0 <= k < |x| && x[k] == lit[0] ==>
      if k == 0 then prev.Some? && IsWordChar(prev.value) else IsWordChar(x[k - 1])
  }

  /** The replacement text of `a` cannot start a match of `b`, whatever
      precedes it. */
  predicate Inert(a: Rule, b: Rule)
    requires |b.lit| > 0
  {
    Shielded(None, a.rep, b.lit)
  }

  /** Both passes have that shape; neither replacement starts a match of its
      own pass, and the lower-case replacement holds no `M` at all. */
  lemma UpperRuleShape()
    ensures WordRule(UpperRule) && Inert(UpperRule, UpperRule)
  {
    assert UpperRule.rep[|UpperRule.rep| - |UpperRule.lit|..] == UpperRule.lit;
  }

  lemma LowerRuleShape()
    ensures WordRule(LowerRule) && Inert(LowerRule, LowerRule) && Inert(LowerRule, UpperRule)
  {
    LowerRuleWord();
    LowerRuleInert();
    assert 'M' !in LowerRule.rep;
  }

  lemma LowerRuleWord()
    ensures WordRule(LowerRule)
  {
    assert LowerRule.rep[|LowerRule.rep| - |LowerRule.lit|..] == LowerRule.lit;
  }

  lemma LowerRuleInert()
    ensures Inert(LowerRule, LowerRule)
  {
    var x := LowerRule.rep;
    forall k | 0 <= k < |x| && x[k] == 'm'
      ensures k > 0 && IsWordChar(x[k - 1])
    {
      assert k == 7;
    }
  }

  /** The look-behind `(?<!soloud_)` of the lower-case pass never decides
      anything: a `ma_` right after `soloud_` follows `_`, a word character,
      so `\b` already rejects it. */
  lemma LookbehindRedundant(s: string, i: nat)
    ensures MatchAt(s, i, LowerRule) <==> MatchAt(s, i, LowerRule.(notAfter := None))
  {
    if 7 <= i <= |s| && s[i - 7..i] == "soloud_" {
      assert s[i - 1] == s[i - 7..i][6];
    }
  }

  // ---------------------------------------------------------------------
  // A match seen locally: the preceding character and what follows.
  // ---------------------------------------------------------------------

  function Prev(s: string, i: nat): Option<char>
    requires i <= |s|
  {
    if i == 0 then None else Some(s[i - 1])
  }

  /** `t` starts with `lit` and the character before it is not a word character. */
  predicate StartsMatch(prev: Option<char>, t: string, lit: string)
  {
    && |lit| <= |t|
    && t[..|lit|] == lit
    && !(prev.Some? && IsWordChar(prev.value))
  }

  lemma MatchAtLocal(s: string, i: nat, r: Rule)
    requires WordRule(r) && i <= |s|
    ensures MatchAt(s, i, r) <==> StartsMatch(Prev(s, i), s[i..], r.lit)
  {
    var n := |r.lit|;
    if i + n <= |s| {
      assert s[i..][..n] == s[i..i + n];
      assert s[i..i + n][0] == s[i];
    }
    if r.notAfter.Some? && |r.notAfter.value| <= i <= |s| {
      var p := r.notAfter.value;
      assert s[i - |p|..i][|p| - 1] == s[i - 1];
    }
  }

  /** No match of `lit` starts anywhere in `t`, given the character before it. */
  predicate CleanFrom(prev: Option<char>, t: string, lit: string)
    decreases |t|
  {
    |t| == 0 || (!StartsMatch(prev, t, lit) && CleanFrom(Some(t[0]), t[1..], lit))
  }

  lemma {:induction false} CleanSuffix(s: string, i: nat, r: Rule)
    requires WordRule(r) && i <= |s|
    ensures CleanFrom(Prev(s, i), s[i..], r.lit) <==> forall j :: i <= j < |s| ==> !MatchAt(s, j, r)
    decreases |s| - i
  {
    if i < |s| {
      CleanSuffix(s, i + 1, r);
      MatchAtLocal(s, i, r);
      assert s[i..][1..] == s[i + 1..];
      assert s[i..][0] == s[i];
    }
  }

  /** Text no match starts in is exactly text the pattern never matches. */
  lemma CleanIffNoMatch(s: string, r: Rule)
    requires WordRule(r)
    ensures CleanFrom(None, s, r.lit) <==> !HasMatch(s, r)
  {
    CleanSuffix(s, 0, r);
    assert s[0..] == s;
  }

  // ---------------------------------------------------------------------
  // What a pass leaves behind.
  // ---------------------------------------------------------------------

  /** One step of the scan. */
  lemma SubFromStep(s: string, i: nat, r: Rule)
    requires |r.lit| > 0 && i < |s|
    ensures MatchAt(s, i, r) ==> SubFrom(s, i, r) == r.rep + SubFrom(s, i + |r.lit|, r)
    ensures !MatchAt(s, i, r) ==> SubFrom(s, i, r) == [s[i]] + SubFrom(s, i + 1, r)
  {
  }

  /** No match starts right after a word character. */
  lemma NoMatchAfterWord(s: string, j: nat, r: Rule)
    requires WordRule(r) && 0 < j <= |s| && IsWordChar(s[j - 1])
    ensures !MatchAt(s, j, r)
  {
    if j + |r.lit| <= |s| {
      assert s[j..j + |r.lit|][0] == s[j];
    }
  }

  /** A run of copied characters: if the scan from `j` (just after a word
      character) emits the word characters `w`, they were copied from `s`. */
  lemma {:induction false} CopyRun(s: string, j: nat, w: string, a: Rule)
    requires WordRule(a) && 0 < j <= |s| && IsWordChar(s[j - 1])
    requires forall k :: 0 <= k < |w| ==> IsWordChar(w[k])
    requires |w| <= |SubFrom(s, j, a)| && SubFrom(s, j, a)[..|w|] == w
    ensures j + |w| <= |s| && s[j..j + |w|] == w
    decreases |w|
  {
    if |w| > 0 {
      NoMatchAfterWord(s, j, a);
      SubFromStep(s, j, a);
      var rest := SubFrom(s, j + 1, a);
      PrefixCons(s[j], rest, w);
      assert forall k :: 0 <= k < |w[1..]| ==> IsWordChar(w[1..][k]) by {
        forall k | 0 <= k < |w[1..]| ensures IsWordChar(w[1..][k]) {
          assert w[1..][k] == w[k + 1];
        }
      }
      CopyRun(s, j + 1, w[1..], a);
      ConsLiteral(s, j, w);
    }
  }

  lemma PrefixCons(c: char, rest: string, w: string)
    requires 0 < |w| <= 1 + |rest| && ([c] + rest)[..|w|] == w
    ensures c == w[0] && rest[..|w| - 1] == w[1..]
  {
    var t := [c] + rest;
    assert t[..|w|][0] == c;
    assert rest[..|w| - 1] == t[..|w|][1..];
  }

  /** A copied character cannot start a `b` match in the output unless `b`
      already matched in the input there. */
  lemma CopiedStartIsMatch(s: string, i: nat, a: Rule, b: Rule)
    requires WordRule(a) && WordRule(b) && i < |s|
    ensures StartsMatch(Prev(s, i), [s[i]] + SubFrom(s, i + 1, a), b.lit) ==> MatchAt(s, i, b)
  {
    if StartsMatch(Prev(s, i), [s[i]] + SubFrom(s, i + 1, a), b.lit) {
      CopiedLiteral(s, i, a, b);
      MatchFromParts(s, i, b);
    }
  }

  /** The text a copied character starts in the output, when it spells a
      literal of word characters, is that literal in the input. */
  lemma CopiedLiteral(s: string, i: nat, a: Rule, b: Rule)
    requires WordRule(a) && WordRule(b) && i < |s|
    requires StartsMatch(Prev(s, i), [s[i]] + SubFrom(s, i + 1, a), b.lit)
    ensures i + |b.lit| <= |s| && s[i..i + |b.lit|] == b.lit
    ensures i == 0 || !IsWordChar(s[i - 1])
  {
    var rest := SubFrom(s, i + 1, a);
    var m := |b.lit|;
    StartsMatchCons(Prev(s, i), s[i], rest, b.lit);
    WordTail(b);
    var w := b.lit[1..];
    assert IsWordChar(b.lit[0]);
    assert IsWordChar(s[i]);
    assert |w| <= |rest| && rest[..|w|] == w;
    CopyRun(s, i + 1, w, a);
    ConsLiteral(s, i, b.lit);
  }

  lemma ConsLiteral(s: string, i: nat, lit: string)
    requires |lit| > 0 && i + |lit| <= |s| && s[i] == lit[0] && s[i + 1..i + |lit|] == lit[1..]
    ensures s[i..i + |lit|] == lit
  {
    assert s[i..i + |lit|] == [s[i]] + s[i + 1..i + |lit|];
    assert lit == [lit[0]] + lit[1..];
  }

  lemma StartsMatchCons(prev: Option<char>, c: char, rest: string, lit: string)
    requires |lit| > 0 && StartsMatch(prev, [c] + rest, lit)
    ensures c == lit[0] && |lit| - 1 <= |rest| && rest[..|lit| - 1] == lit[1..]
    ensures !(prev.Some? && IsWordChar(prev.value))
  {
    var t := [c] + rest;
    assert t[..|lit|][0] == c;
    assert rest[..|lit| - 1] == t[..|lit|][1..];
  }

  lemma WordTail(r: Rule)
    requires WordRule(r)
    ensures forall k :: 0 <= k < |r.lit[1..]| ==> IsWordChar(r.lit[1..][k])
  {
    forall k | 0 <= k < |r.lit[1..]| ensures IsWordChar(r.lit[1..][k]) {
      assert r.lit[1..][k] == r.lit[k + 1];
    }
  }

  /** The literal at `i`, not after a word character, is a match. */
  lemma MatchFromParts(s: string, i: nat, r: Rule)
    requires WordRule(r) && i + |r.lit| <= |s| && s[i..i + |r.lit|] == r.lit
    requires i == 0 || !IsWordChar(s[i - 1])
    ensures MatchAt(s, i, r)
  {
    MatchAtLocal(s, i, r);
    assert s[i..][..|r.lit|] == s[i..i + |r.lit|];
  }

  lemma ShieldedAt(prev: Option<char>, x: string, lit: string, k: nat)
    requires |lit| > 0 && Shielded(prev, x, lit) && k < |x| && x[k] == lit[0]
    ensures if k == 0 then prev.Some? && IsWordChar(prev.value) else IsWordChar(x[k - 1])
  {
    assert 0 <= k < |x| && x[k] == lit[0];
  }

  /** Text shielded at its start whatever precedes it is shielded after any character. */
  lemma ShieldedAfterAny(prev: Option<char>, x: string, lit: string)
    requires |lit| > 0 && Shielded(None, x, lit)
    ensures Shielded(prev, x, lit)
  {
    forall k | 0 <= k < |x| && x[k] == lit[0]
      ensures if k == 0 then prev.Some? && IsWordChar(prev.value) else IsWordChar(x[k - 1])
    {
      ShieldedAt(None, x, lit, k);
    }
  }

  /** Text that starts no match stays so when a shielded prefix is put in front. */
  lemma {:induction false} CleanPrepend(prev: Option<char>, x: string, rest: string, lit: string)
    requires |lit| > 0 && Shielded(prev, x, lit)
    requires CleanFrom(if |x| == 0 then prev else Some(x[|x| - 1]), rest, lit)
    ensures CleanFrom(prev, x + rest, lit)
    decreases |x|
  {
    if |x| > 0 {
      assert Shielded(Some(x[0]), x[1..], lit) by {
        forall k | 0 <= k < |x[1..]| && x[1..][k] == lit[0]
          ensures if k == 0 then IsWordChar(x[0]) else IsWordChar(x[1..][k - 1])
        {
          assert x[1..][k] == x[k + 1];
        }
      }
      CleanPrepend(Some(x[0]), x[1..], rest, lit);
      var t := x + rest;
      assert t[1..] == x[1..] + rest;
      assert t[0] == x[0];
      if x[0] == lit[0] {
        ShieldedAt(prev, x, lit, 0);
      } else if |lit| <= |t| {
        assert t[..|lit|][0] != lit[0];
      }
      assert !StartsMatch(prev, t, lit);
      assert CleanFrom(Some(t[0]), t[1..], lit);
    } else {
      assert x + rest == rest;
    }
  }

  /** The output of a pass of `a` starts no `b` match, provided every `b`
      match of the input is an `a` match (so it was replaced) and `a`'s
      replacement starts none. */
  lemma {:induction false} SubClean(s: string, i: nat, a: Rule, b: Rule)
    requires WordRule(a) && WordRule(b) && Inert(a, b) && i <= |s|
    requires forall j :: i <= j < |s| && MatchAt(s, j, b) ==> MatchAt(s, j, a)
    ensures CleanFrom(Prev(s, i), SubFrom(s, i, a), b.lit)
    decreases |s| - i
  {
    if i < |s| {
      if MatchAt(s, i, a) {
        SubClean(s, i + |a.lit|, a, b);
        CleanAfterMatch(s, i, a, b);
      } else {
        SubClean(s, i + 1, a, b);
        CleanAfterCopy(s, i, a, b);
      }
    }
  }

  /** The replacement put in front of a clean rest leaves it clean. */
  lemma CleanAfterMatch(s: string, i: nat, a: Rule, b: Rule)
    requires WordRule(a) && WordRule(b) && Inert(a, b) && MatchAt(s, i, a)
    requires CleanFrom(Prev(s, i + |a.lit|), SubFrom(s, i + |a.lit|, a), b.lit)
    ensures CleanFrom(Prev(s, i), SubFrom(s, i, a), b.lit)
  {
    SubFromStep(s, i, a);
    RepEndsLikeMatch(s, i, a);
    ShieldedAfterAny(Prev(s, i), a.rep, b.lit);
    CleanPrepend(Prev(s, i), a.rep, SubFrom(s, i + |a.lit|, a), b.lit);
  }

  /** The replacement ends with the character the match ends with. */
  lemma RepEndsLikeMatch(s: string, i: nat, a: Rule)
    requires WordRule(a) && MatchAt(s, i, a)
    ensures Prev(s, i + |a.lit|) == Some(a.rep[|a.rep| - 1])
  {
    var n := |a.lit|;
    assert s[i + n - 1] == s[i..i + n][n - 1] == a.lit[n - 1];
    assert a.rep[|a.rep| - 1] == a.rep[|a.rep| - n..][n - 1] == a.lit[n - 1];
  }

  /** A copied character in front of a clean rest leaves it clean, unless
      `b` matched there in the input. */
  lemma CleanAfterCopy(s: string, i: nat, a: Rule, b: Rule)
    requires WordRule(a) && WordRule(b) && i < |s| && !MatchAt(s, i, a) && !MatchAt(s, i, b)
    requires CleanFrom(Prev(s, i + 1), SubFrom(s, i + 1, a), b.lit)
    ensures CleanFrom(Prev(s, i), SubFrom(s, i, a), b.lit)
  {
    var rest := SubFrom(s, i + 1, a);
    SubFromStep(s, i, a);
    CopiedStartIsMatch(s, i, a, b);
    assert ([s[i]] + rest)[1..] == rest;
    assert ([s[i]] + rest)[0] == s[i];
  }

  /** After a pass, its own pattern matches nowhere. */
  lemma SubLeavesNoMatch(s: string, r: Rule)
    requires WordRule(r) && Inert(r, r)
    ensures !HasMatch(Sub(s, r), r)
  {
    SubClean(s, 0, r, r);
    CleanIffNoMatch(Sub(s, r), r);
  }

  /** A pass of `a` whose replacement starts no `b` match keeps `b`-free text `b`-free. */
  lemma SubKeepsNoMatch(s: string, a: Rule, b: Rule)
    requires WordRule(a) && WordRule(b) && Inert(a, b)
    requires !HasMatch(s, b)
    ensures !HasMatch(Sub(s, a), b)
  {
    SubClean(s, 0, a, b);
    CleanIffNoMatch(Sub(s, a), b);
  }

  // ---------------------------------------------------------------------
  // When a pass changes the text.
  // ---------------------------------------------------------------------

  /** A pass never shortens the text, and lengthens it when it matches. */
  lemma {:induction false} SubFromGrows(s: string, i: nat, r: Rule)
    requires WordRule(r) && i <= |s|
    ensures |SubFrom(s, i, r)| >= |s| - i
    ensures (exists j :: i <= j < |s| && MatchAt(s, j, r)) ==> |SubFrom(s, i, r)| > |s| - i
    decreases |s| - i
  {
    if i < |s| {
      if MatchAt(s, i, r) {
        SubFromGrows(s, i + |r.lit|, r);
      } else {
        SubFromGrows(s, i + 1, r);
        if exists j :: i <= j < |s| && MatchAt(s, j, r) {
          var j :| i <= j < |s| && MatchAt(s, j, r);
          assert j != i;
        }
      }
    }
  }

  /** A pass changes the text exactly when its pattern matches somewhere. */
  lemma SubChangesIffMatch(s: string, r: Rule)
    requires WordRule(r)
    ensures Sub(s, r) != s <==> HasMatch(s, r)
  {
    SubFromGrows(s, 0, r);
    if !HasMatch(s, r) {
      SubFromIdentity(s, 0, r);
    }
    assert s[0..] == s;
  }

  /** Each pass is idempotent. */
  lemma SubIdempotent(s: string, r: Rule)
    requires WordRule(r) && Inert(r, r)
    ensures Sub(Sub(s, r), r) == Sub(s, r)
  {
    SubLeavesNoMatch(s, r);
    SubChangesIffMatch(Sub(s, r), r);
  }

  /** The namespaced text holds no `MA_` and no `ma_` at a word boundary. */
  lemma NamespaceLeavesNoMatch(s: string)
    ensures !HasMatch(Namespace(s), UpperRule)
    ensures !HasMatch(Namespace(s), LowerRule)
  {
    UpperRuleShape();
    LowerRuleShape();
    var u := Sub(s, UpperRule);
    SubLeavesNoMatch(s, UpperRule);
    SubKeepsNoMatch(u, LowerRule, UpperRule);
    SubLeavesNoMatch(u, LowerRule);
  }

  /** Namespacing already-namespaced text changes nothing. */
  lemma NamespaceIdempotent(s: string)
    ensures Namespace(Namespace(s)) == Namespace(s)
  {
    UpperRuleShape();
    LowerRuleShape();
    var n := Namespace(s);
    NamespaceLeavesNoMatch(s);
    SubChangesIffMatch(n, UpperRule);
    SubChangesIffMatch(n, LowerRule);
  }

  /** The transform changes the text exactly when the text holds an `MA_` or
      a `ma_` at a word boundary. */
  lemma NamespaceChangesIffMatch(s: string)
    ensures Namespace(s) != s <==> HasMatch(s, UpperRule) || HasMatch(s, LowerRule)
  {
    UpperRuleShape();
    LowerRuleShape();
    var u := Sub(s, UpperRule);
    SubFromGrows(s, 0, UpperRule);
    SubFromGrows(u, 0, LowerRule);
    SubChangesIffMatch(s, UpperRule);
    SubChangesIffMatch(u, LowerRule);
    assert s[0..] == s;
  }

  // ---------------------------------------------------------------------
  // A position-by-position reading of a pass.
  // ---------------------------------------------------------------------

  /** Position `i` lies inside a match that starts before it. */
  predicate Covered(s: string, i: nat, r: Rule)
  {
    exists p: nat :: p < i < p + |r.lit| && MatchAt(s, p, r)
  }

  /** What position `i` of the input contributes to the output: the
      replacement where a match starts, nothing inside a match, and the
      character itself everywhere else. */
  function Piece(s: string, i: nat, r: Rule): string
    requires i < |s|
  {
    if MatchAt(s, i, r) then r.rep else if Covered(s, i, r) then [] else [s[i]]
  }

  /** The contributions of positions `i` onwards, in order. */
  function Pieces(s: string, i: nat, r: Rule): string
    requires i <= |s|
    decreases |s| - i
  {
    if i == |s| then [] else Piece(s, i, r) + Pieces(s, i + 1, r)
  }

  /** A run of positions that contribute nothing. */
  lemma {:induction false} SkipEmpty(s: string, m: nat, e: nat, r: Rule)
    requires m <= e <= |s|
    requires forall p :: m <= p < e ==> Piece(s, p, r) == []
    ensures Pieces(s, m, r) == Pieces(s, e, r)
    decreases e - m
  {
    if m < e {
      SkipEmpty(s, m + 1, e, r);
      assert Pieces(s, m, r) == Piece(s, m, r) + Pieces(s, m + 1, r);
    }
  }

  /** A position inside a match contributes nothing. */
  lemma CoveredPiece(s: string, i: nat, m: nat, r: Rule)
    requires WordRule(r) && MatchAt(s, i, r) && i < m < i + |r.lit|
    ensures Piece(s, m, r) == []
  {
    InsideMatch(s, i, m, r);
    assert Covered(s, m, r);
  }

  /** No match starts inside another: the character before is part of the
      literal, a word character. */
  lemma InsideMatch(s: string, i: nat, p: nat, r: Rule)
    requires WordRule(r) && MatchAt(s, i, r) && i < p < i + |r.lit|
    ensures !MatchAt(s, p, r)
  {
    assert s[p - 1] == s[i..i + |r.lit|][p - 1 - i] == r.lit[p - 1 - i];
    NoMatchAfterWord(s, p, r);
  }

  /** The position right after a match is not inside any match. */
  lemma AfterMatchUncovered(s: string, i: nat, r: Rule)
    requires WordRule(r) && MatchAt(s, i, r)
    ensures !Covered(s, i + |r.lit|, r)
  {
    forall p: nat | p < i + |r.lit| < p + |r.lit|
      ensures !MatchAt(s, p, r)
    {
      if i < p {
        InsideMatch(s, i, p, r);
      } else if p < i {
        InsideMatch(s, p, i, r);
      }
    }
  }

  /** The scan from an uncovered position equals the position-by-position reading. */
  lemma {:induction false} SubFromPieces(s: string, i: nat, r: Rule)
    requires WordRule(r) && i <= |s| && !Covered(s, i, r)
    ensures SubFrom(s, i, r) == Pieces(s, i, r)
    decreases |s| - i
  {
    if i < |s| {
      if MatchAt(s, i, r) {
        AfterMatchUncovered(s, i, r);
        SubFromPieces(s, i + |r.lit|, r);
        PiecesAtMatch(s, i, r);
        SubFromStep(s, i, r);
      } else {
        NextUncovered(s, i, r);
        SubFromPieces(s, i + 1, r);
        SubFromStep(s, i, r);
      }
    }
  }

  /** At a match both readings emit the replacement and resume after the literal. */
  lemma PiecesAtMatch(s: string, i: nat, r: Rule)
    requires WordRule(r) && MatchAt(s, i, r)
    ensures Pieces(s, i, r) == r.rep + Pieces(s, i + |r.lit|, r)
  {
    CoveredRun(s, i, r);
    SkipEmpty(s, i + 1, i + |r.lit|, r);
    MatchPiece(s, i, r);
  }

  lemma CoveredRun(s: string, i: nat, r: Rule)
    requires WordRule(r) && MatchAt(s, i, r)
    ensures forall p :: i + 1 <= p < i + |r.lit| ==> Piece(s, p, r) == []
  {
    forall p | i + 1 <= p < i + |r.lit|
      ensures Piece(s, p, r) == []
    {
      CoveredPiece(s, i, p, r);
    }
  }

  lemma MatchPiece(s: string, i: nat, r: Rule)
    requires |r.lit| > 0 && MatchAt(s, i, r)
    ensures Pieces(s, i, r) == r.rep + Pieces(s, i + 1, r)
  {
    assert Piece(s, i, r) == r.rep;
  }

  /** Past an uncovered position where nothing matches, the next position is uncovered too. */
  lemma NextUncovered(s: string, i: nat, r: Rule)
    requires |r.lit| > 0 && i < |s| && !Covered(s, i, r) && !MatchAt(s, i, r)
    ensures !Covered(s, i + 1, r)
  {
  }

  /** A pass replaces each match, drops nothing else and copies every other
      character in order. */
  lemma SubIsPointwise(s: string, r: Rule)
    requires WordRule(r)
    ensures Sub(s, r) == Pieces(s, 0, r)
  {
    SubFromPieces(s, 0, r);
  }

  // ---------------------------------------------------------------------
  // The file-level decision.
  // ---------------------------------------------------------------------

  /** One file write: the path and the text written there. */
  datatype FileWrite = FileWrite(path: string, content: string)

  /** What `namespace_file` returns and the writes it performs. */
  datatype FileOutcome = FileOutcome(changed: bool, writes: seq<FileWrite>)

  /** `namespace_file` on a file holding `content`: when the transform changes
      it, a backup of the original next to it and the new content in place. */
  function NamespaceFile(path: string, content: string): (o: FileOutcome)
    ensures o.changed <==> HasMatch(content, UpperRule) || HasMatch(content, LowerRule)
    ensures !o.changed ==> o.writes == []
    // a changed file: first the original as a backup, then the namespaced text in place
    ensures o.changed ==>
      o.writes == [FileWrite(path + ".backup", content), FileWrite(path, Namespace(content))]
    ensures o.changed ==> Namespace(content) != content
  {
    NamespaceChangesIffMatch(content);
    var updated := Namespace(content);
    if updated != content then
      FileOutcome(true, [FileWrite(path + ".backup", content), FileWrite(path, updated)])
    else FileOutcome(false, [])
  }

  /** Running the script a second time over its own output reports no change. */
  lemma SecondRunChangesNothing(path: string, content: string)
    ensures var o := NamespaceFile(path, content);
            o.changed ==> !NamespaceFile(path, o.writes[1].content).changed
  {
    NamespaceLeavesNoMatch(content);
  }

  /** A match starts with the literal's first character. */
  lemma MatchStartsWithHead(s: string, j: nat, r: Rule)
    requires |r.lit| > 0 && MatchAt(s, j, r)
    ensures j < |s| && s[j] == r.lit[0]
  {
    assert s[j..j + |r.lit|][0] == s[j];
  }

  /** A pass leaves text without the literal's first character alone. */
  lemma SubWithoutHead(s: string, r: Rule)
    requires |r.lit| > 0 && r.lit[0] !in s
    ensures !HasMatch(s, r) && Sub(s, r) == s
  {
    forall j | 0 <= j < |s| ensures !MatchAt(s, j, r) {
      if MatchAt(s, j, r) {
        MatchStartsWithHead(s, j, r);
      }
    }
    SubFromIdentity(s, 0, r);
  }

  /** `MA_` at the start of a word is renamed. */
  lemma RenamesMacro()
    ensures Namespace("MA_X") == "SOLOUD_MA_X"
  {
    var s := "MA_X";
    assert s[0..3] == "MA_";
    assert MatchAt(s, 0, UpperRule);
    SubFromStep(s, 0, UpperRule);
    SubFromStep(s, 3, UpperRule);
    assert Sub(s, UpperRule) == "SOLOUD_MA_X";
    SubWithoutHead("SOLOUD_MA_X", LowerRule);
  }

  /** `ma_` after punctuation is renamed. */
  lemma RenamesIdentifier()
    ensures Namespace("(ma_y") == "(soloud_ma_y"
  {
    var s := "(ma_y";
    SubWithoutHead(s, UpperRule);
    assert s[1..4] == "ma_";
    assert MatchAt(s, 1, LowerRule);
    SubFromStep(s, 0, LowerRule);
    SubFromStep(s, 1, LowerRule);
    SubFromStep(s, 4, LowerRule);
  }

  /** The text differs from the literal at offset `k` from `j`, so no match starts at `j`. */
  lemma MismatchAt(s: string, j: nat, r: Rule, k: nat)
    requires k < |r.lit| && (j + |r.lit| > |s| || s[j + k] != r.lit[k])
    ensures !MatchAt(s, j, r)
  {
    if j + |r.lit| <= |s| {
      assert s[j..j + |r.lit|][k] == s[j + k];
    }
  }

  /** The `ma_` inside `gamma_` follows a word character and is kept. */
  lemma KeepsWordInterior()
    ensures Namespace("gamma_") == "gamma_"
  {
    var s := "gamma_";
    SubWithoutHead(s, UpperRule);
    forall j | 0 <= j < |s| ensures !MatchAt(s, j, LowerRule) {
      if j == 3 {
        NoMatchAfterWord(s, 3, LowerRule);
      } else if j == 2 {
        MismatchAt(s, 2, LowerRule, 1);
      } else {
        MismatchAt(s, j, LowerRule, 0);
      }
    }
    SubFromIdentity(s, 0, LowerRule);
  }

  /** The literals are case-sensitive: `Ma_` and `mA_` are kept. */
  lemma KeepsMixedCase()
    ensures Namespace("Ma_ mA_") == "Ma_ mA_"
  {
    var s := "Ma_ mA_";
    forall j | 0 <= j < |s| ensures !MatchAt(s, j, UpperRule) {
      if j == 0 {
        MismatchAt(s, 0, UpperRule, 1);
      } else {
        MismatchAt(s, j, UpperRule, 0);
      }
    }
    SubFromIdentity(s, 0, UpperRule);
    forall j | 0 <= j < |s| ensures !MatchAt(s, j, LowerRule) {
      if j == 4 {
        MismatchAt(s, 4, LowerRule, 1);
      } else {
        MismatchAt(s, j, LowerRule, 0);
      }
    }
    SubFromIdentity(s, 0, LowerRule);
  }
}
